=== FILE: README.md ===
# Dungeon game core, modelled in Dafny

This project models the core of a WPF dungeon game. In its classic form a
walker starts in the top-left cell of an integer grid and moves only right or
down to the bottom-right goal. Each entered cell adds its value to the
walker's HP. The model covers four parts:

- **DP solver** (`dp_solver.dfy`, module `DpSolver`). It computes the
  minimal HP needed at every cell. The model proves that the table meets the
  solver's recurrence. It also proves that the table is exactly the minimal
  survival HP: some right/down path survives from `dp[0][0]` and no smaller
  HP admits one.
- **Dungeon** (`dungeons.dfy`, `path_search.dfy`, modules `Dungeons` and
  `PathSearch`). It covers:
  - the grid's analytics (total, average, sign counts, extremes);
  - special and safe cells;
  - neighbour queries and the position-safety test;
  - the health-constrained best-first `FindPath`;
  - reconstruction of the optimal route from the DP table;
  - the post-processing of the two random generators;
  - the built-in 5×5 default dungeon.
- **Q-learning agent** (`qlearning.dfy`, module `QLearning`). The agent is a
  sparse table of (Right, Down) action values. The model covers lookups
  that insert missing entries, the temporal-difference update,
  epsilon-greedy selection with the four difficulty tiers, and one training
  episode with its loss and accuracy counters.
- **Turn-based engine** (`game_engine.dfy`, module `GameEngine`). It covers
  accepting or refusing a player's move, tile effects (traps, power-ups,
  keys, locked doors, teleporters, checkpoints), winning, lives and respawn,
  power-up countdowns and turn rotation.

Shared vocabulary lives in `grids.dfy` (positions, moves, rectangular grids,
row-major enumeration). The plain records of `Models/GameConfig.cs` are in
`game_config.dfy`. Random draws come from an explicit stream in
`random_source.dfy`.

Modelling choices:

- **Random draws.** `System.Random` becomes a stream of samples, passed in
  and threaded through. `NextDouble` reads one sample in [0, 1).
  `Next(lo, hi)` is `lo + floor(u * (hi - lo))`.
- **Clock and difficulty tier.** The wall clock is the `now` argument of a
  move. The process-wide agent tier is a `tier` argument.
- **Int.MaxValue sentinel.** The source uses `int.MaxValue` to mean "this
  neighbour is off the grid". The model uses an explicit `OffGrid` need that
  compares above every finite need.
- **Missing DP table.** With no DP table, the source's tie-break reads
  `dp[r, c + 1]` or `dp[r + 1, c]` and dereferences null. That read happens
  only when a neighbour exists, so at the goal the tie-break returns Right
  without faulting. Everywhere else the fault is the `NullTable` result of
  `QLearning.ChooseMove`, not a precondition.
- **1×1 training episode.** The loop of `TrainEpisode`
  (AI/QLearningAgent.cs:174) has no exit before its first action: the start
  cell is never tested for being the goal. On a 1×1 grid that first action
  always leaves the grid, so the episode takes the −25 branch and ends with
  no legal step.
- **Training accuracy.** A non-terminal step counts as agreeing when its
  action equals the table's preferred move from the cell just entered, not
  from the cell the action was chosen in (AI/QLearningAgent.cs:206-209).
  `QLearning.Agrees` states it that way.
- **Training runs.** An episode's plays are kept as a ghost trace. Each
  play is one `ChooseMove` with the table followed by one `TakeAction`, and
  consecutive plays hand over agent, random stream, cell and HP. The loss,
  the counters and the final table are read off that trace.

## Model

| member | source | states |
|---|---|---|
| `DpSolver.Build` | Models/DpSolver.cs:6-30 | The table has the grid's shape. It satisfies the solver's recurrence: goal entry `max(1, 1 - v)`, every entry at least 1, single-successor last row and last column, `max(1, min(down, right) - v)` inside. It equals the table of minimal survival HP. |
| `DpSolver.TableSatisfiesRecurrence` | Models/DpSolver.cs:10-28 | The minimal-HP table satisfies all four clauses of the solver's recurrence. |
| `DpSolver.TableGoalEntry` | Models/DpSolver.cs:10 | The goal entry is `max(1, 1 - v[m-1][n-1])`. |
| `DpSolver.TableFloor` | Models/DpSolver.cs:10-27 | Every entry of the table is at least 1. |
| `DpSolver.TableLastRow` | Models/DpSolver.cs:12-16 | A last-row entry is `max(1, dp[m-1][j+1] - v)`. |
| `DpSolver.TableLastColumn` | Models/DpSolver.cs:17-21 | A last-column entry is `max(1, dp[i+1][n-1] - v)`. |
| `DpSolver.TableInterior` | Models/DpSolver.cs:22-28 | An interior entry is `max(1, min(dp[i+1][j], dp[i][j+1]) - v)`. |
| `DpSolver.MinHpCharacterisation` | Models/DpSolver.cs:5-30 | From a cell, some right/down path to the goal survives with starting HP `h` if and only if `h >= dp` at that cell. |
| `DpSolver.MinHpIsLowerBound` | Models/DpSolver.cs:5 | No surviving path starts with less HP than the table entry of its first cell. |
| `DpSolver.SurvivesMonotone` | Models/DpSolver.cs:5 | A path that survives with some HP also survives with any larger HP. |
| `DpSolver.GreedyPathSurvives` | Models/DpSolver.cs:5-30 | Following the cheaper neighbour from a cell survives with exactly that cell's table entry. |
| `DpSolver.SurvivingPathLength` | Models/Dungeon.cs:298-314 | Every surviving right/down route from a cell to the goal has `(m-1-row) + (n-1-col) + 1` cells. |
| `DpSolver.OptimalMove` | Models/Dungeon.cs:301-311 | The move is Right exactly when the right need is at most the down need, with off-grid needs maximal. Away from the goal it stays on the grid. |
| `DpSolver.OptimalMoveIsPreferred` | Models/Dungeon.cs:300-311 | On the solver's table, that comparison picks the neighbour whose minimal HP is smaller, preferring right on ties. |
| `DpSolver.SingleCell` | Models/DpSolver.cs:8-22 | On a 1×1 grid the table is `[[max(1, 1 - v)]]`. |
| `DpSolver.DefaultBlockNeedsSeven` | Models/DpSolver.cs:6-30 | A 3×3 grid with cells `[[-2,-3,3],[-5,-10,1],[10,30,-5]]` needs 7 HP at its top-left cell. |
| `RandomSource.NextDouble` | AI/QLearningAgent.cs:61 | A draw lies in `[0, 1)` and consumes exactly one sample. |
| `RandomSource.Next` | Models/Dungeon.cs:164 | A draw `Next(lo, hi)` lies in `[lo, hi)` and consumes exactly one sample. |
| `Dungeons.M` | Models/Dungeon.cs:11 | The row count of a valid dungeon is at least 1, and every row has the first row's length. |
| `Dungeons.N` | Models/Dungeon.cs:12 | The column count is at least 1 and is the length of every row. |
| `Dungeons.Cell` | Models/Dungeon.cs:13 | On a dungeon built from its grid, the indexed value lies between the recorded minimum and maximum. The cell is a safe zone exactly when the value is non-negative, and special exactly when the value is special. |
| `Dungeons.SignCountsBounded` | Models/Dungeon.cs:63-64 | The positive count plus the negative count never exceeds the number of cells. |
| `Dungeons.AnalyticsSpec` | Models/Dungeon.cs:49-75 | The minimum is at most every cell and the maximum at least every cell. Both are attained by some cell. The total is the sum of all cells. The sign counts sum to at most M·N. |
| `Dungeons.ScanRow` | Models/Dungeon.cs:59-67 | After scanning a row, the running tally describes every value seen so far, that row included. |
| `Dungeons.AnalyzeGrid` | Models/Dungeon.cs:49-75 | The nested-loop pass, started from the `int.MaxValue`/`int.MinValue` sentinels, yields the analytics of the grid's values. |
| `Dungeons.ValueSpecialTiles` | Models/Dungeon.cs:106-121 | A cell is listed exactly when its value is above 20, below -20, or zero. The list is in strict row-major order. |
| `Dungeons.TileSpecialTiles` | Models/Dungeon.cs:93-105 | For a tile board, a cell is listed exactly when its tile type is not Normal. The list is in row-major order. |
| `Dungeons.SafeZones` | Models/Dungeon.cs:124-139 | A cell is listed exactly when its value is non-negative. The list is in row-major order. |
| `Dungeons.FromGrid` | Models/Dungeon.cs:11-25 | `M` and `N` are the grid's dimensions and the difficulty is Normal. The analytics, special cells and safe zones are those of the grid, with both lists in row-major order. |
| `Dungeons.TileValues` | Models/Dungeon.cs:31-38 | The value grid has the board's shape and holds each tile's value. |
| `Dungeons.FromTiles` | Models/Dungeon.cs:27-40 | The cells are the tile values. Special cells are the non-Normal tiles. Safe zones are the tiles of non-negative value. |
| `Dungeons.GetValidMoves` | Models/Dungeon.cs:208-227 | A position is returned exactly when it is an in-bounds neighbour (orthogonal, or all eight when diagonal moves are allowed). There are at most 4 or 8. Orthogonal results come up, down, left, right; diagonal results come in row-major order. |
| `Dungeons.CandidatesSpec` | Models/Dungeon.cs:211-213 | The direction tables list the four orthogonal and the eight surrounding offsets in the source's order. |
| `Dungeons.IsPositionSafe` | Models/Dungeon.cs:229-233 | The answer is true exactly when the cell is on the grid and `minHealth + value > 0`. |
| `Dungeons.GreedyPathFollowsTable` | Models/Dungeon.cs:298-314 | Each step of the preferred route is the table's optimal move and stays on the grid. |
| `Dungeons.Reconstruct` | Models/Dungeon.cs:294-314 | The reconstruction loop builds exactly the preferred right/down route from (0, 0). |
| `Dungeons.GetOptimalSolution` | Models/Dungeon.cs:289-317 | It returns `dp[0][0]` and a route that starts at (0, 0), has `M + N - 1` cells and survives with that HP. |
| `Dungeons.GenerateRandom` | Models/Dungeon.cs:158-166 | Every cell lies in `[vmin, vmax]`. Cell (i, j) is the draw at position `i*n + j` of the stream. The dungeon is built from that grid, and exactly `m*n` draws are consumed. |
| `Dungeons.GenerateBalanced` | Models/Dungeon.cs:192-197 | The start is non-negative and the goal at least 10. The start is raised to 0 and the goal to 10 when lower, every other drawn cell is kept, and the difficulty level is stamped. |
| `Dungeons.Balance` | Models/Dungeon.cs:193-194 | The start is raised to 0 and then the goal to 10 when lower. Every other cell is kept. On a 1×1 grid the one cell gets both raises. |
| `Dungeons.GenerateBalancedIdempotent` | Models/Dungeon.cs:192-194 | Post-processing an already balanced grid changes nothing. |
| `Dungeons.CreateDefault` | Models/Dungeon.cs:141-147 | The default dungeon is the 5×5 grid of the source. |
| `Dungeons.CreateDefaultCells` | Models/Dungeon.cs:141-147 | The built-in dungeon's grid has the default cells, given one by one. |
| `Dungeons.DefaultDungeonNeeds` | Models/Dungeon.cs:141-147 | A grid with the default cells needs 6 HP at its top-left cell. Its top-left 3×3 block needs 7. |
| `PathSearch.FirstBest` | Models/Dungeon.cs:246 | The index chosen has the smallest score in the frontier and is the first entry with that score, as a stable sort puts it. |
| `PathSearch.PopBest` | Models/Dungeon.cs:246-247 | The entry removed from the frontier has the smallest score and is a good entry. The frontier shrinks by exactly that one entry, and the rest stay good. |
| `PathSearch.ExtendEntry` | Models/Dungeon.cs:261-265 | Extending a good frontier entry by a pruned-in orthogonal move yields a good entry. The route stays contiguous and the health is the running sum. |
| `PathSearch.Expand` | Models/Dungeon.cs:257-266 | Expansion adds at most four entries, and every frontier entry stays a good entry. |
| `PathSearch.FindPath` | Models/Dungeon.cs:235-270 | The search always terminates. A non-empty result starts at the start and ends at the end. Every step is an in-bounds orthogonal move. Health is positive on entering every non-end cell and at the end. When start equals end with positive health, the result is that single cell. |
| `QLearning.TierParams` | Windows/SettingsWindow.xaml.cs:272-313 | Every tier's epsilon and gamma lie in (0, 1) and its alpha in (0, 1]. Unknown tiers get the Intermediate values. |
| `QLearning.TiersAreOrdered` | Windows/SettingsWindow.xaml.cs:272-305 | Going up the tiers, epsilon strictly decreases while alpha and gamma strictly increase. |
| `QLearning.WithTier` | Windows/SettingsWindow.xaml.cs:270-313 | Installing a tier sets epsilon, alpha and gamma to the tier's row of `TierParams`. The table and the three counters (episodes, accuracy, last loss) are untouched. |
| `QLearning.Q` | AI/QLearningAgent.cs:28-36 | A missing key reads as `[0, 0]` and is inserted. Stored values and other keys are unchanged. |
| `QLearning.UpdateQ` | AI/QLearningAgent.cs:226-238 | It returns the TD error `target - q[s][a]`, where the target is the reward when terminal and otherwise `reward + gamma * max(q[ns])`. Only `q[s][a]` changes, to `old + alpha * error`. The key set grows by `s` and, when not terminal, by `ns`. |
| `QLearning.UpdateMovesTowardTarget` | AI/QLearningAgent.cs:235-236 | With alpha in [0, 1], the new value lies between the old value and the target, and the remaining error is scaled by `1 - alpha`. |
| `QLearning.TieNeeds` | AI/QLearningAgent.cs:132-133 | With a table, the two needs are the right and down neighbours' entries, off-grid when there is no such neighbour. At the goal both are off-grid, with or without a table. |
| `QLearning.BreakTie` | AI/QLearningAgent.cs:130-160 | Intermediate or unknown tiers pick Right exactly when needR ≤ needD, without drawing. Expert and Master do the same on unequal needs and compare neighbour values on equal needs, with an off-grid neighbour lowest. Beginner draws once and inverts the choice exactly when its draw is below 0.3. |
| `QLearning.BreakTieLegal` | AI/QLearningAgent.cs:130-160 | Away from the goal, every non-Beginner tie-break stays on the grid. On the solver's table, the default tier takes the DP-optimal move. |
| `QLearning.WeightedPick` | AI/QLearningAgent.cs:116-127 | The cumulative scan returns one of the candidate moves. |
| `QLearning.SmartRandomMove` | AI/QLearningAgent.cs:83-128 | At the goal it returns Right without drawing. It returns the only legal move when there is one, and a legal move whenever one exists. Otherwise it uses the two-way weighted draw. |
| `QLearning.DrawTwo` | AI/QLearningAgent.cs:109-127 | The draw consumes exactly one sample. With non-positive total weight, it is Right exactly when `Next(0, 2)` gives 0. |
| `QLearning.DrawTwoSpec` | AI/QLearningAgent.cs:109-127 | With non-positive total weight, the draw is the uniform `Next(0, 2)`. Otherwise right alone having positive weight means Right. Down alone having positive weight means Down, unless the draw is exactly zero. |
| `QLearning.ScaledPick` | AI/QLearningAgent.cs:116-125 | A unit draw scaled by the total weight falls in the positive-weight move's share of the scan. |
| `QLearning.TwoWayPick` | AI/QLearningAgent.cs:117-125 | For a draw in `[0, total)`, the scan never returns a move of non-positive weight, except Right on a zero draw. |
| `QLearning.ExplorationRate` | AI/QLearningAgent.cs:43-58 | The threshold differs from epsilon exactly when a table is given, the tier is Beginner or Master and epsilon is non-zero. For positive epsilon it rises for Beginner only and drops for Master only, staying within half and one and a half times epsilon. |
| `QLearning.ChooseMove` | AI/QLearningAgent.cs:38-81 | No stored action value changes. At most one entry is added, for the current state, and it is `[0, 0]`. When exploring, the agent is unchanged; Master and Expert use the smart random move and the others a uniform `Next(0, 2)`. When exploiting, the state is in the table. With untied values the result is Right exactly when `q0 >= q1`. Tied values go to the tie-break with the needs of `TieNeeds`. The null-table fault happens exactly when no table is given, the agent exploits, the values are tied and the state is not the goal. |
| `QLearning.Reward` | AI/QLearningAgent.cs:190-197 | The reward exceeds the cell value exactly at the goal without dying, falls below it exactly on dying away from the goal, and otherwise differs from it by exactly 50. |
| `QLearning.TakeAction` | AI/QLearningAgent.cs:176-201 | An off-grid action applies `UpdateQ(s, a, -25, s, non-terminal)` and adds 25 to the loss. Otherwise the walker enters the neighbour and its HP grows by the cell value. The reward is the value, +50 at the goal and -50 when HP ≤ 0. The step is terminal exactly at the goal or when HP ≤ 0. |
| `QLearning.PlayStep` | AI/QLearningAgent.cs:176-201 | The action is the move `ChooseMove` picks with the table, and the step is `TakeAction` of that move. An off-grid action adds 25 to the loss and keeps the HP. Otherwise the walker enters the in-grid neighbour, its HP grows by the cell value, and the step is terminal exactly at the goal or when HP ≤ 0. |
| `QLearning.TalliesSnoc` | AI/QLearningAgent.cs:185-210 | One more play adds its loss, one taken step when it is non-terminal, and one agreeing step when it agrees with the table. |
| `QLearning.PlayMoves` | AI/QLearningAgent.cs:178-181 | A play that stays on the grid moves its walker one cell right or down, onto the grid. |
| `QLearning.ExtendRun` | AI/QLearningAgent.cs:174-216 | A run grows by a play that starts where the run left its walker. |
| `QLearning.PlayEpisode` | AI/QLearningAgent.cs:165-216 | The loop makes a run of plays from (0, 0) with HP `dp[0][0] + v[0][0]`, ending at the first off-grid, goal or fatal play. The summed loss, taken steps and agreeing steps are the run's tallies. Steps count the legal plays. The outcome, the final cell and HP, and the final table and stream are the last play's. At most M+N-2 legal steps are made. A 1×1 grid ends off-grid with loss 25. |
| `QLearning.TrainEpisode` | AI/QLearningAgent.cs:162-224 | The episode is a run from (0, 0) with HP `dp[0][0] + v[0][0]`, and the agent keeps its table from the run's last play. `Episodes` grows by exactly 1. `LastLoss` is the run's summed loss over `max(1, steps)` and is returned. Accuracy follows the 0.95/0.05 moving average of agreeing over taken steps only when a non-terminal step was taken, and stays in [0, 1]. A 1×1 grid ends off-grid with loss 25. |
| `QLearning.PlayOfRun` | AI/QLearningAgent.cs:176-181 | Every play of a run is made from an in-grid cell, and one that stays on the grid leaves its walker one cell right or down. |
| `QLearning.PlayOnDiagonal` | AI/QLearningAgent.cs:174-213 | The i-th play of a run from the entrance is made from an in-grid cell on the i-th anti-diagonal. |
| `QLearning.RunIsStaircase` | AI/QLearningAgent.cs:174-216 | Every play of a run from the entrance is made on the grid, the i-th from the i-th anti-diagonal, so a run has at most M+N-1 plays. |
| `GameEngine.Div` | Services/GameEngine.cs:331 | C# integer division truncates toward zero: the remainder has the dividend's sign and is smaller than the divisor. |
| `GameEngine.Truncate` | Services/GameEngine.cs:418 | The `(int)` cast of a double truncates toward zero. |
| `GameEngine.RevealNearbyTiles` | Services/GameEngine.cs:369-379 | The clamped loops reveal exactly the tiles within Chebyshev distance `radius` of the centre. Nothing else on the board changes. |
| `GameEngine.Visit` | Services/GameEngine.cs:207-210 | The entered tile is marked visited and revealed. Every other tile is unchanged. |
| `GameEngine.FindLastCheckpoint` | Services/GameEngine.cs:404-411 | The respawn cell is the saved checkpoint when there is one, otherwise (0, 0). |
| `GameEngine.CheckpointInside` | Services/GameEngine.cs:404-411 | For a well-kept player, the respawn cell lies on the board. |
| `GameEngine.GetInitialHealth` | Services/GameEngine.cs:160-170 | Easy, Hard and Nightmare start with 150, 75 and 50 HP. Every other level, Normal included, starts with 100. |
| `GameEngine.InitialHealthOrdered` | Services/GameEngine.cs:160-170 | Harder levels start with strictly less health, and no level starts with less than Nightmare's 50. |
| `GameEngine.ApplyTrapEffect` | Services/GameEngine.cs:314-334 | Only health and maximum health change. Poison costs 20. Weakness lowers the maximum health by 10 down to a floor of 10: it is `max - 10` from 20 up and exactly 10 at 20 or below. Bleed costs a tenth of the maximum health, rounded down. Freeze, Confusion and unknown effects change nothing. No trap heals. |
| `GameEngine.UpdatePowerUpDurations` | Services/GameEngine.cs:381-402 | Positive shield and flight counters drop by one, and a flag clears exactly when its counter reaches zero. The flag-iff-counter invariant is preserved. |
| `GameEngine.PowerUpsWearOff` | Services/GameEngine.cs:381-402 | After `k` updates each counter is `max(0, d - k)`. A shield or flight granted for `d` moves is active for exactly `d` further updates. |
| `GameEngine.PowerUpEffect` | Services/GameEngine.cs:336-361 | Shield gives 5 moves of shield and Flight 3 moves of flight. HealthBoost raises health and maximum health by 20. Strength and Speed record their bonuses. Position, keys, lives, score and checkpoint are untouched. |
| `GameEngine.RecordPowerUp` | Services/GameEngine.cs:363-366 | The power-up is in the list afterwards. The list gains at most that one entry at the end and stays duplicate-free. |
| `GameEngine.ApplyPowerUp` | Services/GameEngine.cs:336-367 | Only Vision touches the board: it reveals the tiles within distance 2 of the player. The player gets the power-up's effect and the recorded list. |
| `GameEngine.ProcessTileEffect` | Services/GameEngine.cs:262-312 | The score grows by `max(0, value)`. Outside traps and power-ups, health grows by the value. Keys go up on a key tile and down on a door only when positive. A teleporter with a target moves the player there. A checkpoint saves the entered cell as the respawn point. Lives never change here. |
| `GameEngine.SpecialEffect` | Services/GameEngine.cs:268-308 | Only traps and power-ups change health. Key tiles add a key, and doors take one only when one is held. A teleporter with a target moves the player there. A checkpoint saves the current cell. Score, lives and name never change here. |
| `GameEngine.SpecialEffectKeepsPlayerOk` | Services/GameEngine.cs:268-308 | Every tile type's effect keeps a well-kept player well kept. |
| `GameEngine.ProcessKeepsPlayerOk` | Services/GameEngine.cs:262-312 | Entering a tile keeps a well-kept player well kept. The player stays on the board, with keys ≥ 0, maximum health ≥ 10, a duplicate-free power-up list and consistent countdowns. |
| `GameEngine.CalculateBonusScore` | Services/GameEngine.cs:413-420 | The bonus is twice the health, plus 50 per power-up, plus 10 per second left. The seconds left are zero exactly once the limit has passed. Otherwise they are the `left` with `limit - left <= elapsed < limit - left + 1`, so at most the limit. |
| `GameEngine.BonusDecreasesWithTime` | Services/GameEngine.cs:413-420 | A later finish never earns a larger bonus. |
| `GameEngine.BonusAtWholeSeconds` | Services/GameEngine.cs:413-420 | Finishing between whole seconds `k` and `k + 1` earns twice the health, 50 per power-up and 10 per second in `max(0, limit - k)`. |
| `GameEngine.Entering` | Services/GameEngine.cs:265-266 | Only health and score change. Health moves by exactly the tile value. Score never drops: it grows by the value when that is non-negative and stays put otherwise. |
| `GameEngine.Entered` | Services/GameEngine.cs:206-213 | After entering, the target tile is visited and revealed. Only visibility flags change on the board, and the saved checkpoint stays complete. |
| `GameEngine.LifeCheck` | Services/GameEngine.cs:224-242 | With health left the player is kept. Otherwise a life is lost. While lives remain, the player respawns at the last checkpoint with half the maximum health (truncated). Losing the last life ends the game. Other players are untouched. |
| `GameEngine.Settle` | Services/GameEngine.cs:206-242 | The target tile is visited and revealed. The win is judged on the entered cell, even after a teleport, and before the health check. The score after the tile effect grows by the bonus, computed on that player, exactly when the entered cell is the goal. The moving player then follows the respawn rule. The game is over exactly on a win or on losing the last life. Other players are untouched. |
| `GameEngine.Accept` | Services/GameEngine.cs:206-259 | On top of the settled move, the elapsed time is recorded; the bonus uses the elapsed time from before the move. The game is over exactly on a win, on losing the last life, or past the Time Attack limit. |
| `GameEngine.MovePlayer` | Services/GameEngine.cs:172-204 | A move is refused exactly when the game is over, the target is off the board, a Classic-mode non-flyer moves up or left, or the target is a locked door and the player has no key. A refused move changes nothing. |
| `GameEngine.MoveScoreOffGoal` | Services/GameEngine.cs:206-266 | An accepted move that does not enter the goal adds exactly `max(0, value)` of the entered tile to the mover's score, whether the player survives, respawns or is out of lives. |
| `GameEngine.EarlierWinScoresMore` | Services/GameEngine.cs:215-221 | Entering the goal from a game whose clock shows more elapsed time never ends with a higher score. |
| `GameEngine.MoveKeepsWellFormed` | Services/GameEngine.cs:172-260 | Every move keeps the engine's invariant. Everyone stays on the board, keys and lives never go negative, and maximum health stays ≥ 10. Power-up lists stay duplicate-free and countdowns consistent. A win implies game over, and a running game has no player without lives. |
| `GameEngine.EnteredOk` | Services/GameEngine.cs:206-213 | The player who entered a tile is still well kept. |
| `GameEngine.SettledPlayerOk` | Services/GameEngine.cs:206-242 | After an accepted move, the moving player is still well kept, whether it survives, respawns or is out of lives. |
| `GameEngine.AcceptKeepsWellFormed` | Services/GameEngine.cs:206-259 | An accepted move keeps the engine's invariant. |
| `GameEngine.CheckpointRespawn` | Services/GameEngine.cs:225-235 | A player who dies with lives to spare on the checkpoint just entered respawns on that checkpoint. |
| `GameEngine.LockedDoorNeedsKey` | Services/GameEngine.cs:199-204 | A move onto a locked door is accepted exactly when the player holds a key, and it then uses one. |
| `GameEngine.SwitchToNextPlayer` | Services/GameEngine.cs:441-447 | Only the turn index changes and it stays in range. A single player keeps the turn. |
| `GameEngine.SwitchCycles` | Services/GameEngine.cs:441-447 | Within one round, `k` switches advance the turn `k` places, wrapping from the last player to the first. |
| `GameEngine.EveryPlayerGetsTurn` | Services/GameEngine.cs:441-447 | A full round gives the turn back, and every player gets a turn within it. |

## Left out

- User interface, audio, the update service and application settings: the
  `Windows/*`, `Services/Audio.cs`, `Services/UpdateService.cs` and
  `Properties/*` files are not part of this model. They are windows, media
  playback, HTTP and persistence. Only the tier table of the settings window
  is kept, as `QLearning.TierParams`.
- Random distributions: draws are explicit inputs, and no claim is made
  about how they are distributed.
- `GenerateBalanced`'s square-root range shaping, `CalculateDifficultyScore`,
  `GetDifficultyRating` and `GetTileValueDistribution`: floating-point
  scoring. `GenerateBalanced` is modelled from the drawn grid onward.
- `CreateByDifficulty`: it only looks up the level's value range and calls
  `GenerateBalanced`, which is modelled.
- `GenerateAdvanced` and `PrintAnalysis`: engine start-up and console output.
- `StartNewGame`, `GenerateGrid`, `AddSpecialFeatures` and
  `GetRandomEmptyPosition`: random board generation. Its retry loop never
  ends on a 3×3 board. The model takes any square board whose teleporter
  targets are on the board.
- `RevealTile`, `GetTile` and `GetCurrentPlayer`: one-line accessors.
- Change events, game messages and the `DateTime` clock: elapsed time is the
  `now` input of a move.
- The process-wide shared agent and background training: there is no
  concurrency in the model.
- Q-values are exact reals, not doubles, so rounding is not modelled.
- `Dungeons.AnalyzeGrid`: the running total is an unbounded integer. The
  source's `int` would wrap on grids whose sum leaves the 32-bit range.
- `GameEngine.MovePlayer`: health, score and keys are unbounded integers, so
  32-bit overflow is not modelled.
- `DpSolver.Build`: table entries are unbounded integers. The source's
  `need` subtraction would wrap for cell values near the 32-bit limits.
- `PathSearch.FindPath`: the running health is an unbounded integer, so
  32-bit overflow of the summed cell values is not modelled.
- `QLearning.TrainEpisode`: `dp[0, 0] + d[0, 0]`, the HP sums and the step
  cap `M * N + 10` are unbounded integers, so 32-bit overflow is not
  modelled.
- `Dungeons.IsPositionSafe`: `minHealth + value` is an unbounded integer,
  so 32-bit overflow of the sum is not modelled.
- `Dungeons.GenerateRandom`: requires `m >= 1` and `n >= 1`, where the
  source builds an empty dungeon with a `NaN` average. It also requires
  `vmin <= vmax`, which the lobby window ensures by swapping the two.
  `vmax + 1` overflowing at `int.MaxValue` is not modelled.
- `Dungeons.ValueSpecialTiles`: the source tests `Math.Abs(value) > 20`
  (Models/Dungeon.cs:115), and `Math.Abs` throws an `OverflowException` on
  `int.MinValue`. The model lists such a cell as special instead of failing.
  So `Dungeons.FromGrid` builds a dungeon where the source's constructor
  throws on a grid holding `-2147483648`.
- `Dungeons.FromGrid`: dungeons have at least one row and one column. An
  empty grid would make the source's average `NaN`. A cell equal to
  `int.MinValue` does not make it fail, unlike the source's constructor
  (see `Dungeons.ValueSpecialTiles`).
- `QLearning.ChooseMove`: requires the state to be on the grid even without
  a DP table, where the source would not index anything.
- `QLearning.BreakTie`: a DP entry equal to `int.MaxValue` compares equal to
  an off-grid neighbour in the source. The model's off-grid need is strictly
  larger than every finite need.
- `QLearning.DrawTwoSpec`: when the draw is exactly zero, the source's
  cumulative scan returns Right even if Right has non-positive weight. The
  contract states this rather than claiming that a move of non-positive
  weight is never drawn.
- `GameEngine.MovePlayer`: requires the player index to exist and the board
  to have the configured side. The source throws otherwise. It also requires
  the saved checkpoint to be complete: both checkpoint keys present or
  neither. The source writes the two keys together
  (Services/GameEngine.cs:304-305), so the missing-key exception of
  `FindLastCheckpoint` cannot arise from play.

=== FILE: dp_solver.dfy ===
/** The minimal-HP table of the dungeon: `dp[i][j]` is the least HP with which
    a player may enter cell `(i, j)` and still reach the bottom-right goal by
    right/down moves, keeping HP at 1 or more on entry and after every cell. */
module DpSolver {
  import opened Grids

  /** The recurrence of the table, read from the goal backwards. */
  function MinHp(g: seq<seq<int>>, p: Pos): (h: int)
    requires IsGrid(g) && InGrid(g, p)
    decreases |g| - p.row + |g[0]| - p.col
  {
    var m, n := |g|, |g[0]|;
    var v := At(g, p);
    if p.row == m - 1 && p.col == n - 1 then Max(1, 1 - v)
    else if p.row == m - 1 then Max(1, MinHp(g, StepPos(p, Right)) - v)
    else if p.col == n - 1 then Max(1, MinHp(g, StepPos(p, Down)) - v)
    else Max(1, Min(MinHp(g, StepPos(p, Down)), MinHp(g, StepPos(p, Right))) - v)
  }

  function Last<T>(s: seq<T>): T
    requires |s| >= 1
  {
    s[|s| - 1]
  }

  /** The whole table, as the specification of `Build`. */
  function Table(g: seq<seq<int>>): (dp: seq<seq<int>>)
    requires IsGrid(g)
    ensures IsGrid(dp) && HasShape(dp, |g|, |g[0]|)
  {
    seq(|g|, i requires 0 <= i < |g| =>
      seq(|g[0]|, j requires 0 <= j < |g[0]| => MinHp(g, Pos(i, j))))
  }

  // ---------------------------------------------------------------------
  // The source's bottom-up fill.
  // ---------------------------------------------------------------------

  /** The recurrence, read off the table: goal entry, single-successor edges,
      two-successor interior, and the floor of 1 everywhere. */
  predicate SatisfiesRecurrence(dp: seq<seq<int>>, g: seq<seq<int>>)
    requires IsGrid(g) && HasShape(dp, |g|, |g[0]|)
  {
    && Last(Last(dp)) == Max(1, 1 - Last(Last(g)))
    && (forall i, j :: 0 <= i < |dp| && 0 <= j < |dp[i]| ==> dp[i][j] >= 1)
    && (forall j :: 0 <= j < |g[0]| - 1 ==>
         Last(dp)[j] == Max(1, Last(dp)[j + 1] - Last(g)[j]))
    && (forall i :: 0 <= i < |g| - 1 ==>
         Last(dp[i]) == Max(1, Last(dp[i + 1]) - Last(g[i])))
    && (forall i, j {:trigger dp[i][j]} :: 0 <= i < |g| - 1 && 0 <= j < |g[0]| - 1 ==>
         dp[i][j] == Max(1, Min(dp[i + 1][j], dp[i][j + 1]) - g[i][j]))
  }

  lemma TableLastRow(g: seq<seq<int>>)
    requires IsGrid(g)
    ensures forall j :: 0 <= j < |g[0]| - 1 ==>
         Last(Table(g))[j] == Max(1, Last(Table(g))[j + 1] - Last(g)[j])
  {
    var dp, m, n := Table(g), |g|, |g[0]|;
    var lastRow := m - 1;
    forall j | 0 <= j < n - 1
      ensures Last(dp)[j] == Max(1, Last(dp)[j + 1] - Last(g)[j])
    {
      assert Last(dp) == dp[lastRow];
      assert dp[lastRow][j] == MinHp(g, Pos(lastRow, j));
      assert dp[lastRow][j + 1] == MinHp(g, Pos(lastRow, j + 1));
    }
  }
  lemma TableLastColumn(g: seq<seq<int>>)
    requires IsGrid(g)
    ensures forall i :: 0 <= i < |g| - 1 ==>
         Last(Table(g)[i]) == Max(1, Last(Table(g)[i + 1]) - Last(g[i]))
  {
    var dp, m, n := Table(g), |g|, |g[0]|;
    var lastCol := n - 1;
    forall i | 0 <= i < m - 1
      ensures Last(dp[i]) == Max(1, Last(dp[i + 1]) - Last(g[i]))
    {
      assert dp[i][lastCol] == MinHp(g, Pos(i, lastCol));
      assert dp[i + 1][lastCol] == MinHp(g, Pos(i + 1, lastCol));
    }
  }
  lemma TableGoalEntry(g: seq<seq<int>>)
    requires IsGrid(g)
    ensures Last(Last(Table(g))) == Max(1, 1 - Last(Last(g)))
  {
    var dp, m, n := Table(g), |g|, |g[0]|;
    assert Last(Last(dp)) == MinHp(g, Pos(m - 1, n - 1));
  }
  lemma TableFloor(g: seq<seq<int>>)
    requires IsGrid(g)
    ensures forall i, j :: 0 <= i < |Table(g)| && 0 <= j < |Table(g)[i]| ==> Table(g)[i][j] >= 1
  {
    var dp, m, n := Table(g), |g|, |g[0]|;
    forall i, j | 0 <= i < m && 0 <= j < n
      ensures dp[i][j] >= 1
    {
      assert dp[i][j] == MinHp(g, Pos(i, j));
    }
  }
  lemma TableInterior(g: seq<seq<int>>)
    requires IsGrid(g)
    ensures forall i, j {:trigger Table(g)[i][j]} :: 0 <= i < |g| - 1 && 0 <= j < |g[0]| - 1 ==>
         Table(g)[i][j] == Max(1, Min(Table(g)[i + 1][j], Table(g)[i][j + 1]) - g[i][j])
  {
    var dp, m, n := Table(g), |g|, |g[0]|;
    forall i, j {:trigger dp[i][j]} | 0 <= i < m - 1 && 0 <= j < n - 1
      ensures dp[i][j] == Max(1, Min(dp[i + 1][j], dp[i][j + 1]) - g[i][j])
    {
      assert dp[i][j] == MinHp(g, Pos(i, j));
      assert dp[i + 1][j] == MinHp(g, Pos(i + 1, j));
      assert dp[i][j + 1] == MinHp(g, Pos(i, j + 1));
    }
  }

  lemma TableSatisfiesRecurrence(g: seq<seq<int>>)
    requires IsGrid(g)
    ensures SatisfiesRecurrence(Table(g), g)
  {
    TableGoalEntry(g);
    TableFloor(g);
    TableLastRow(g);
    TableLastColumn(g);
    TableInterior(g);
  }

  /** Goal cell, then the last row right to left, the last column bottom to
      top, then the interior in reverse row-major order. */
  method Build(g: seq<seq<int>>) returns (dp: seq<seq<int>>)
    requires IsGrid(g)
    ensures HasShape(dp, |g|, |g[0]|)
    ensures SatisfiesRecurrence(dp, g)
    ensures dp == Table(g)
  {
    var m, n := |g|, |g[0]|;
    var lastRow, lastCol := m - 1, n - 1;
    dp := seq(m, _ => seq(n, _ => 0));
    dp := dp[lastRow := dp[lastRow][lastCol := Max(1, 1 - g[lastRow][lastCol])]];

    var j := n - 2;
    while j >= 0
      invariant -1 <= j <= n - 2
      invariant HasShape(dp, m, n)
      invariant forall l {:trigger dp[lastRow][l]} :: j < l < n ==> dp[lastRow][l] == MinHp(g, Pos(lastRow, l))
    {
      var need := dp[m - 1][j + 1] - g[m - 1][j];
      dp := dp[lastRow := dp[lastRow][j := Max(1, need)]];
      j := j - 1;
    }

    var i := m - 2;
    while i >= 0
      invariant -1 <= i <= m - 2
      invariant HasShape(dp, m, n)
      invariant forall l {:trigger dp[lastRow][l]} :: 0 <= l < n ==> dp[lastRow][l] == MinHp(g, Pos(lastRow, l))
      invariant forall k {:trigger dp[k][lastCol]} :: i < k < m ==> dp[k][lastCol] == MinHp(g, Pos(k, lastCol))
    {
      var need := dp[i + 1][n - 1] - g[i][n - 1];
      dp := dp[i := dp[i][lastCol := Max(1, need)]];
      i := i - 1;
    }

    i := m - 2;
    while i >= 0
      invariant -1 <= i <= m - 2
      invariant HasShape(dp, m, n)
      invariant forall k {:trigger dp[k][lastCol]} :: 0 <= k < m ==> dp[k][lastCol] == MinHp(g, Pos(k, lastCol))
      invariant forall k, l {:trigger dp[k][l]} :: i < k < m && 0 <= l < n ==> dp[k][l] == MinHp(g, Pos(k, l))
    {
      j := n - 2;
      while j >= 0
        invariant -1 <= j <= n - 2
        invariant HasShape(dp, m, n)
        invariant forall k {:trigger dp[k][lastCol]} :: 0 <= k < m ==> dp[k][lastCol] == MinHp(g, Pos(k, lastCol))
        invariant forall k, l {:trigger dp[k][l]} :: i < k < m && 0 <= l < n ==> dp[k][l] == MinHp(g, Pos(k, l))
        invariant forall l {:trigger dp[i][l]} :: j < l < n ==> dp[i][l] == MinHp(g, Pos(i, l))
      {
        var next := Min(dp[i + 1][j], dp[i][j + 1]);
        var need := next - g[i][j];
        dp := dp[i := dp[i][j := Max(1, need)]];
        j := j - 1;
      }
      i := i - 1;
    }

    forall k | 0 <= k < m
      ensures dp[k] == Table(g)[k]
    {
      assert forall l :: 0 <= l < n ==> dp[k][l] == MinHp(g, Pos(k, l));
    }
    assert dp == Table(g);
    TableSatisfiesRecurrence(g);
  }

  // ---------------------------------------------------------------------
  // What the table means: survivable routes.
  // ---------------------------------------------------------------------

  /** `path` is a right/down route ending at the goal, entered with HP `h`:
      HP is at least 1 on entering its first cell and after each of its cells. */
  predicate Survives(g: seq<seq<int>>, path: seq<Pos>, h: int)
    requires IsGrid(g)
    decreases |path|
  {
    && |path| >= 1
    && InGrid(g, path[0])
    && h >= 1
    && var after := h + At(g, path[0]);
       if |path| == 1 then path[0] == Goal(g) && after >= 1
       else IsStep(path[0], path[1]) && Survives(g, path[1..], after)
  }

  /** More HP never hurts. */
  lemma {:induction false} SurvivesMonotone(g: seq<seq<int>>, path: seq<Pos>, h: int, h': int)
    requires IsGrid(g) && Survives(g, path, h) && h <= h'
    ensures Survives(g, path, h')
    decreases |path|
  {
    if |path| > 1 {
      SurvivesMonotone(g, path[1..], h + At(g, path[0]), h' + At(g, path[0]));
    }
  }

  /** No route can be entered with less HP than the table says. */
  lemma {:induction false} MinHpIsLowerBound(g: seq<seq<int>>, path: seq<Pos>, h: int)
    requires IsGrid(g) && Survives(g, path, h)
    ensures h >= MinHp(g, path[0])
    decreases |path|
  {
    if |path| > 1 {
      MinHpIsLowerBound(g, path[1..], h + At(g, path[0]));
    }
  }

  /** The direction the table prefers from `p`: right exactly when the right
      neighbour needs no more HP than the lower one (an off-grid neighbour
      needs more than any cell). */
  function Preferred(g: seq<seq<int>>, p: Pos): (mv: Move)
    requires IsGrid(g) && InGrid(g, p) && p != Goal(g)
    ensures InGrid(g, StepPos(p, mv))
    ensures InGrid(g, StepPos(p, Right)) && InGrid(g, StepPos(p, Down)) ==>
      (mv == Right <==> MinHp(g, StepPos(p, Right)) <= MinHp(g, StepPos(p, Down)))
  {
    if p.col + 1 >= |g[0]| then Down
    else if p.row + 1 >= |g| then Right
    else if MinHp(g, StepPos(p, Right)) <= MinHp(g, StepPos(p, Down)) then Right
    else Down
  }

  /** The route that always takes the preferred direction. */
  function GreedyPath(g: seq<seq<int>>, p: Pos): (path: seq<Pos>)
    requires IsGrid(g) && InGrid(g, p)
    decreases |g| - p.row + |g[0]| - p.col
  {
    if p == Goal(g) then [p]
    else [p] + GreedyPath(g, StepPos(p, Preferred(g, p)))
  }

  /** The table's value is enough: the greedy route survives with exactly it. */
  lemma {:induction false} GreedyPathSurvives(g: seq<seq<int>>, p: Pos)
    requires IsGrid(g) && InGrid(g, p)
    ensures GreedyPath(g, p)[0] == p
    ensures Survives(g, GreedyPath(g, p), MinHp(g, p))
    decreases |g| - p.row + |g[0]| - p.col
  {
    if p != Goal(g) {
      var q := StepPos(p, Preferred(g, p));
      GreedyPathSurvives(g, q);
      var path := GreedyPath(g, p);
      assert path[1..] == GreedyPath(g, q);
      SurvivesMonotone(g, GreedyPath(g, q), MinHp(g, q), MinHp(g, p) + At(g, p));
    }
  }

  /** The table entry is exactly the least HP with which some route survives. */
  lemma MinHpCharacterisation(g: seq<seq<int>>, p: Pos, h: int)
    requires IsGrid(g) && InGrid(g, p)
    ensures (exists path :: |path| >= 1 && path[0] == p && Survives(g, path, h)) <==> h >= MinHp(g, p)
  {
    if h >= MinHp(g, p) {
      GreedyPathSurvives(g, p);
      SurvivesMonotone(g, GreedyPath(g, p), MinHp(g, p), h);
      assert Survives(g, GreedyPath(g, p), h);
    }
    if exists path :: |path| >= 1 && path[0] == p && Survives(g, path, h) {
      var path :| |path| >= 1 && path[0] == p && Survives(g, path, h);
      MinHpIsLowerBound(g, path, h);
    }
  }

  /** Every surviving route from `p` has the fixed length of a right/down staircase. */
  lemma {:induction false} SurvivingPathLength(g: seq<seq<int>>, path: seq<Pos>, h: int)
    requires IsGrid(g) && Survives(g, path, h)
    ensures |path| == (|g| - 1 - path[0].row) + (|g[0]| - 1 - path[0].col) + 1
    decreases |path|
  {
    if |path| > 1 {
      SurvivingPathLength(g, path[1..], h + At(g, path[0]));
    }
  }

  // ---------------------------------------------------------------------
  // The "need" comparison shared by path reconstruction and the agent.
  // ---------------------------------------------------------------------

  /** HP needed on entering a neighbour, with `OffGrid` standing for the
      source's `int.MaxValue` sentinel: larger than every table entry. */
  datatype Need = Finite(hp: int) | OffGrid

  predicate NeedLe(a: Need, b: Need)
  {
    b.OffGrid? || (a.Finite? && a.hp <= b.hp)
  }

  function NeedRight(dp: seq<seq<int>>, r: int, c: int): (need: Need)
    requires IsGrid(dp) && InGrid(dp, Pos(r, c))
    ensures need.Finite? <==> c + 1 < |dp[0]|
  {
    if c + 1 < |dp[0]| then Finite(dp[r][c + 1]) else OffGrid
  }

  function NeedDown(dp: seq<seq<int>>, r: int, c: int): (need: Need)
    requires IsGrid(dp) && InGrid(dp, Pos(r, c))
    ensures need.Finite? <==> r + 1 < |dp|
  {
    if r + 1 < |dp| then Finite(dp[r + 1][c]) else OffGrid
  }

  /** The DP-optimal direction from `(r, c)`: right when the right neighbour needs
      no more than the lower one, ties (including two off-grid neighbours) to right. */
  function OptimalMove(dp: seq<seq<int>>, r: int, c: int): (mv: Move)
    requires IsGrid(dp) && InGrid(dp, Pos(r, c))
    ensures mv == Right <==> NeedLe(NeedRight(dp, r, c), NeedDown(dp, r, c))
    ensures Pos(r, c) != Goal(dp) ==> InGrid(dp, StepPos(Pos(r, c), mv))
  {
    if NeedLe(NeedRight(dp, r, c), NeedDown(dp, r, c)) then Right else Down
  }

  /** On the real table the need comparison is the route preference. */
  lemma OptimalMoveIsPreferred(g: seq<seq<int>>, p: Pos)
    requires IsGrid(g) && InGrid(g, p) && p != Goal(g)
    ensures OptimalMove(Table(g), p.row, p.col) == Preferred(g, p)
  {
  }

  // ---------------------------------------------------------------------
  // Concrete instances.
  // ---------------------------------------------------------------------

  /** A 1x1 grid: the only entry is the goal entry. */
  lemma SingleCell(v: int)
    ensures Table([[v]]) == [[Max(1, 1 - v)]]
  {
    assert Table([[v]])[0] == [Max(1, 1 - v)];
  }

  /** The top-left 3x3 block of the default dungeon needs 7 HP to enter. */
  lemma DefaultBlockNeedsSeven(g: seq<seq<int>>)
    requires HasShape(g, 3, 3)
    requires forall i, j :: 0 <= i < 3 && 0 <= j < 3 ==> g[i][j] == [[-2, -3, 3], [-5, -10, 1], [10, 30, -5]][i][j]
    ensures MinHp(g, Pos(0, 0)) == 7
  {
    assert MinHp(g, Pos(2, 2)) == 6;
    assert MinHp(g, Pos(2, 1)) == 1;
    assert MinHp(g, Pos(2, 0)) == 1;
    assert MinHp(g, Pos(1, 2)) == 5;
    assert MinHp(g, Pos(0, 2)) == 2;
    assert MinHp(g, Pos(1, 1)) == 11;
    assert MinHp(g, Pos(1, 0)) == 6;
    assert MinHp(g, Pos(0, 1)) == 5;
  }
}

=== FILE: dungeons.dfy ===
/** The dungeon: an immutable integer grid with analytics computed once at
    construction (totals, counts, extremes, special and safe cells), neighbour
    queries, DP-based route reconstruction and the post-processing of the two
    generators. */
module Dungeons {
  import opened Grids
  import opened DpSolver
  import opened GameConfig
  import opened RandomSource

  // ---------------------------------------------------------------------
  // Reference definitions over the row-major sequence of cell values.
  // ---------------------------------------------------------------------

  function Sum(s: seq<int>): int
  {
    if |s| == 0 then 0 else Sum(s[..|s| - 1]) + s[|s| - 1]
  }

  predicate IsPositive(v: int) { v > 0 }
  predicate IsNegative(v: int) { v < 0 }

  function CountWhere(s: seq<int>, keep: int -> bool): (k: nat)
    ensures k <= |s|
  {
    if |s| == 0 then 0
    else CountWhere(s[..|s| - 1], keep) + (if keep(s[|s| - 1]) then 1 else 0)
  }

  function SeqMin(s: seq<int>): (r: int)
    requires |s| >= 1
    ensures r in s
    ensures forall x :: x in s ==> r <= x
  {
    if |s| == 1 then s[0]
    else
      var rest := SeqMin(s[..|s| - 1]);
      assert forall x :: x in s ==> x in s[..|s| - 1] || x == s[|s| - 1];
      Min(rest, s[|s| - 1])
  }

  function SeqMax(s: seq<int>): (r: int)
    requires |s| >= 1
    ensures r in s
    ensures forall x :: x in s ==> x <= r
  {
    if |s| == 1 then s[0]
    else
      var rest := SeqMax(s[..|s| - 1]);
      assert forall x :: x in s ==> x in s[..|s| - 1] || x == s[|s| - 1];
      Max(rest, s[|s| - 1])
  }

  /** No cell is both positive and negative, so the two counts fit in the grid. */
  lemma {:induction false} SignCountsBounded(s: seq<int>)
    ensures CountWhere(s, IsPositive) + CountWhere(s, IsNegative) <= |s|
  {
    if |s| > 0 {
      SignCountsBounded(s[..|s| - 1]);
    }
  }

  // ---------------------------------------------------------------------
  // Analytics.
  // ---------------------------------------------------------------------

  datatype Analytics = Analytics(
    totalValue: int,
    averageValue: real,
    positiveCount: nat,
    negativeCount: nat,
    minValue: int,
    maxValue: int)

  /** The analytics of a grid, defined over its row-major values. */
  function Analyze(g: seq<seq<int>>): Analytics
    requires IsGrid(g)
  {
    FlattenLength(g, |g[0]|);
    var values := Flatten(g);
    var cells := |g| * |g[0]|;
    Analytics(
      Sum(values),
      Sum(values) as real / cells as real,
      CountWhere(values, IsPositive),
      CountWhere(values, IsNegative),
      SeqMin(values),
      SeqMax(values))
  }

  /** The extremes bound every cell and are attained; the counts fit in M*N. */
  lemma AnalyticsSpec(g: seq<seq<int>>)
    requires IsGrid(g)
    ensures forall i, j :: 0 <= i < |g| && 0 <= j < |g[0]| ==>
      Analyze(g).minValue <= g[i][j] <= Analyze(g).maxValue
    ensures exists i, j :: 0 <= i < |g| && 0 <= j < |g[0]| && g[i][j] == Analyze(g).minValue
    ensures exists i, j :: 0 <= i < |g| && 0 <= j < |g[0]| && g[i][j] == Analyze(g).maxValue
    ensures Analyze(g).positiveCount + Analyze(g).negativeCount <= |g| * |g[0]|
    ensures Analyze(g).totalValue == Sum(Flatten(g))
  {
    var a, values := Analyze(g), Flatten(g);
    forall i, j | 0 <= i < |g| && 0 <= j < |g[0]|
      ensures a.minValue <= g[i][j] <= a.maxValue
    {
      FlattenMembership(g, g[i][j]);
    }
    FlattenMembership(g, a.minValue);
    FlattenMembership(g, a.maxValue);
    SignCountsBounded(values);
    FlattenLength(g, |g[0]|);
  }

  /** Running totals of the single pass: sum, sign counts and extremes. */
  datatype Tally = Tally(total: int, positive: int, negative: int, lo: int, hi: int)

  /** Before the first value the extremes hold the `int.MaxValue` and
      `int.MinValue` sentinels. */
  const EmptyTally := Tally(0, 0, 0, Int32Max, Int32Min)

  function Add(t: Tally, v: int): Tally
  {
    Tally(t.total + v, t.positive + (if v > 0 then 1 else 0), t.negative + (if v < 0 then 1 else 0),
          Min(t.lo, v), Max(t.hi, v))
  }

  /** `t` holds the totals of a pass that has seen exactly `seen`. */
  predicate Scanned(seen: seq<int>, t: Tally)
  {
    && t.total == Sum(seen)
    && t.positive == CountWhere(seen, IsPositive)
    && t.negative == CountWhere(seen, IsNegative)
    && (|seen| == 0 ==> t.lo == Int32Max && t.hi == Int32Min)
    && (|seen| > 0 ==> t.lo == SeqMin(seen) && t.hi == SeqMax(seen))
  }

  lemma ScanStep(seen: seq<int>, t: Tally, v: int)
    requires Scanned(seen, t)
    requires Int32Min <= v <= Int32Max
    ensures Scanned(seen + [v], Add(t, v))
  {
    var next := seen + [v];
    assert next[..|seen|] == seen;
    if |seen| == 0 {
      assert next == [v];
    }
  }

  /** One row of the pass. */
  method ScanRow(seen: seq<int>, t: Tally, row: seq<int>) returns (t': Tally)
    requires Scanned(seen, t)
    requires forall j :: 0 <= j < |row| ==> Int32Min <= row[j] <= Int32Max
    ensures Scanned(seen + row, t')
  {
    t' := t;
    var j := 0;
    assert seen + row[..0] == seen;
    while j < |row|
      invariant 0 <= j <= |row|
      invariant Scanned(seen + row[..j], t')
    {
      ScanStep(seen + row[..j], t', row[j]);
      assert seen + row[..j + 1] == seen + row[..j] + [row[j]];
      t' := Add(t', row[j]);
      j := j + 1;
    }
    assert row[..|row|] == row;
  }

  /** The source's single pass over the grid, with `int.MaxValue` and
      `int.MinValue` as the starting extremes. */
  method AnalyzeGrid(g: seq<seq<int>>) returns (a: Analytics)
    requires IsGrid(g) && IsInt32Grid(g)
    ensures a == Analyze(g)
  {
    var m, n := |g|, |g[0]|;
    var t := EmptyTally;
    var i := 0;
    while i < m
      invariant 0 <= i <= m
      invariant Scanned(Flatten(g[..i]), t)
    {
      t := ScanRow(Flatten(g[..i]), t, g[i]);
      FlattenSnoc(g, i);
      i := i + 1;
    }
    assert g[..m] == g;
    FlattenLength(g, n);
    a := Analytics(t.total, t.total as real / (m * n) as real, t.positive, t.negative, t.lo, t.hi);
  }

  // ---------------------------------------------------------------------
  // The dungeon record.
  // ---------------------------------------------------------------------

  datatype Dungeon = Dungeon(
    grid: seq<seq<int>>,
    tiles: Option<seq<seq<Tile>>>,
    difficultyLevel: string,
    analytics: Analytics,
    specialTiles: seq<Pos>,
    safeZones: seq<Pos>)

  predicate Valid(d: Dungeon)
  {
    IsGrid(d.grid)
  }

  /** `M`: the number of rows; on a valid dungeon at least one, all of one length. */
  function M(d: Dungeon): (m: nat)
    ensures Valid(d) ==> m >= 1 && HasShape(d.grid, m, |d.grid[0]|)
  {
    |d.grid|
  }

  /** `N`: the length shared by every row. */
  function N(d: Dungeon): (n: nat)
    requires Valid(d)
    ensures n >= 1 && forall i :: 0 <= i < M(d) ==> |d.grid[i]| == n
  {
    |d.grid[0]|
  }

  /** The indexer `this[i, j]`. On a dungeon built from its grid the value
      lies between the recorded extremes, and the cell is a safe zone or a
      special cell exactly when its value says so. */
  function Cell(d: Dungeon, i: int, j: int): (v: int)
    requires Valid(d) && 0 <= i < M(d) && 0 <= j < N(d)
    ensures d == FromGrid(d.grid) ==>
      && d.analytics.minValue <= v <= d.analytics.maxValue
      && (Pos(i, j) in d.safeZones <==> v >= 0)
      && (Pos(i, j) in d.specialTiles <==> IsSpecialValue(v))
  {
    AnalyticsSpec(d.grid);
    d.grid[i][j]
  }

  /** Extreme-valued or zero cells count as special on a plain grid. */
  predicate IsSpecialValue(v: int)
  {
    v > 20 || v < -20 || v == 0
  }

  function CellsWhere(g: seq<seq<int>>, keep: int -> bool): (r: seq<Pos>)
    requires IsGrid(g)
    ensures forall p :: p in r <==> InGrid(g, p) && keep(At(g, p))
    ensures StrictlyRowMajor(r)
  {
    var m, n := |g|, |g[0]|;
    var select := (p: Pos) => InBounds(m, n, p) && keep(g[p.row][p.col]);
    CellsSpec(m, n);
    FilterKeepsOrder(Cells(m, n), select, Before);
    Filter(Cells(m, n), select)
  }

  function ValueSpecialTiles(g: seq<seq<int>>): (r: seq<Pos>)
    requires IsGrid(g)
    ensures forall p :: p in r <==> InGrid(g, p) && IsSpecialValue(At(g, p))
    ensures StrictlyRowMajor(r)
  {
    CellsWhere(g, IsSpecialValue)
  }

  /** Tiles of a board whose type is not `Normal`, in row-major order. */
  function TileSpecialTiles(tiles: seq<seq<Tile>>): (r: seq<Pos>)
    requires IsGrid(tiles)
    ensures forall p :: p in r <==> InGrid(tiles, p) && At(tiles, p).kind != Normal
    ensures StrictlyRowMajor(r)
  {
    var m, n := |tiles|, |tiles[0]|;
    var select := (p: Pos) => InBounds(m, n, p) && tiles[p.row][p.col].kind != Normal;
    CellsSpec(m, n);
    FilterKeepsOrder(Cells(m, n), select, Before);
    Filter(Cells(m, n), select)
  }

  predicate IsSafeValue(v: int) { v >= 0 }

  function SafeZones(g: seq<seq<int>>): (r: seq<Pos>)
    requires IsGrid(g)
    ensures forall p :: p in r <==> InGrid(g, p) && At(g, p) >= 0
    ensures StrictlyRowMajor(r)
  {
    CellsWhere(g, IsSafeValue)
  }

  /** `new Dungeon(int[,])`: difficulty "Normal", analytics of the grid, special
      cells by value, safe cells with non-negative values. */
  function FromGrid(g: seq<seq<int>>): (d: Dungeon)
    requires IsGrid(g)
    ensures Valid(d) && d.grid == g && d.tiles == None
    ensures M(d) == |g| && N(d) == |g[0]|
    ensures d.difficultyLevel == NormalLevel
    ensures d.analytics == Analyze(g)
    ensures forall p :: p in d.specialTiles <==> InGrid(g, p) && IsSpecialValue(At(g, p))
    ensures forall p :: p in d.safeZones <==> InGrid(g, p) && At(g, p) >= 0
    ensures StrictlyRowMajor(d.specialTiles) && StrictlyRowMajor(d.safeZones)
  {
    Dungeon(g, None, NormalLevel, Analyze(g), ValueSpecialTiles(g), SafeZones(g))
  }

  function TileValues(tiles: seq<seq<Tile>>): (g: seq<seq<int>>)
    requires IsGrid(tiles)
    ensures IsGrid(g) && HasShape(g, |tiles|, |tiles[0]|)
    ensures forall i, j :: 0 <= i < |g| && 0 <= j < |g[0]| ==> g[i][j] == tiles[i][j].value
  {
    seq(|tiles|, i requires 0 <= i < |tiles| =>
      seq(|tiles[0]|, j requires 0 <= j < |tiles[0]| => tiles[i][j].value))
  }

  /** `new Dungeon(GameTile[,])`: the grid holds the tile values, and the
      special cells are the tiles of a non-`Normal` type. */
  function FromTiles(tiles: seq<seq<Tile>>): (d: Dungeon)
    requires IsGrid(tiles)
    ensures Valid(d) && HasShape(d.grid, |tiles|, |tiles[0]|)
    ensures forall i, j :: 0 <= i < M(d) && 0 <= j < N(d) ==> Cell(d, i, j) == tiles[i][j].value
    ensures d.tiles == Some(tiles) && d.difficultyLevel == NormalLevel
    ensures forall p :: p in d.specialTiles <==> InGrid(tiles, p) && At(tiles, p).kind != Normal
    ensures forall p :: p in d.safeZones <==> InGrid(tiles, p) && At(tiles, p).value >= 0
    ensures StrictlyRowMajor(d.specialTiles) && StrictlyRowMajor(d.safeZones)
  {
    var g := TileValues(tiles);
    Dungeon(g, Some(tiles), NormalLevel, Analyze(g), TileSpecialTiles(tiles), SafeZones(g))
  }

  // ---------------------------------------------------------------------
  // Neighbours and safety.
  // ---------------------------------------------------------------------

  const Orthogonal: seq<(int, int)> := [(-1, 0), (1, 0), (0, -1), (0, 1)]
  const AllEight: seq<(int, int)> := [(-1, -1), (-1, 0), (-1, 1), (0, -1), (0, 1), (1, -1), (1, 0), (1, 1)]

  predicate IsNeighbour(row: int, col: int, p: Pos, allowDiagonal: bool)
  {
    if allowDiagonal then p != Pos(row, col) && Abs(p.row - row) <= 1 && Abs(p.col - col) <= 1
    else Abs(p.row - row) + Abs(p.col - col) == 1
  }

  /** Position of a neighbour in the order up, down, left, right. */
  function OrthRank(row: int, col: int, p: Pos): int
  {
    if p.row < row then 0 else if p.row > row then 1 else if p.col < col then 2 else 3
  }

  /** The up/down/left/right order around `(row, col)`. */
  function OrthOrder(row: int, col: int): (Pos, Pos) -> bool
  {
    (p: Pos, q: Pos) => OrthRank(row, col, p) < OrthRank(row, col, q)
  }

  function Candidates(row: int, col: int, dirs: seq<(int, int)>): (s: seq<Pos>)
    ensures |s| == |dirs|
  {
    seq(|dirs|, k requires 0 <= k < |dirs| => Pos(row + dirs[k].0, col + dirs[k].1))
  }

  lemma CandidatesSpec(row: int, col: int, allowDiagonal: bool)
    ensures var s := Candidates(row, col, if allowDiagonal then AllEight else Orthogonal);
      && (forall p :: p in s <==> IsNeighbour(row, col, p, allowDiagonal))
      && (allowDiagonal ==> StrictlyRowMajor(s))
      && (!allowDiagonal ==> OrderedBy(s, OrthOrder(row, col)))
  {
    var s := Candidates(row, col, if allowDiagonal then AllEight else Orthogonal);
    if allowDiagonal {
      assert s == [Pos(row - 1, col - 1), Pos(row - 1, col), Pos(row - 1, col + 1), Pos(row, col - 1),
                   Pos(row, col + 1), Pos(row + 1, col - 1), Pos(row + 1, col), Pos(row + 1, col + 1)];
    } else {
      assert s == [Pos(row - 1, col), Pos(row + 1, col), Pos(row, col - 1), Pos(row, col + 1)];
    }
  }

  /** The in-bounds neighbours of `(row, col)`, up/down/left/right (or the
      eight surrounding cells in row-major order when diagonals are allowed). */
  function GetValidMoves(d: Dungeon, row: int, col: int, allowDiagonal: bool): (r: seq<Pos>)
    requires Valid(d)
    ensures |r| <= (if allowDiagonal then 8 else 4)
    ensures forall p :: p in r <==> InGrid(d.grid, p) && IsNeighbour(row, col, p, allowDiagonal)
    ensures allowDiagonal ==> StrictlyRowMajor(r)
    ensures !allowDiagonal ==> OrderedBy(r, OrthOrder(row, col))
  {
    var m, n := M(d), N(d);
    var s := Candidates(row, col, if allowDiagonal then AllEight else Orthogonal);
    var inside := (p: Pos) => InBounds(m, n, p);
    CandidatesSpec(row, col, allowDiagonal);
    if allowDiagonal then
      FilterKeepsOrder(s, inside, Before);
      Filter(s, inside)
    else
      FilterKeepsOrder(s, inside, OrthOrder(row, col));
      Filter(s, inside)
  }

  /** A cell is safe for a health level when it is on the grid and entering it
      leaves that health positive. */
  function IsPositionSafe(d: Dungeon, row: int, col: int, minHealth: int): (safe: bool)
    requires Valid(d)
    ensures safe <==> InGrid(d.grid, Pos(row, col)) && minHealth + d.grid[row][col] > 0
  {
    if row < 0 || row >= M(d) || col < 0 || col >= N(d) then false
    else d.grid[row][col] + minHealth > 0
  }

  // ---------------------------------------------------------------------
  // Route reconstruction from the DP table.
  // ---------------------------------------------------------------------

  lemma GreedyStep(g: seq<seq<int>>, path: seq<Pos>, here: Pos, full: seq<Pos>)
    requires IsGrid(g) && InGrid(g, here) && here != Goal(g)
    requires path + GreedyPath(g, here)[1..] == full
    ensures var next := StepPos(here, Preferred(g, here));
      path + [next] + GreedyPath(g, next)[1..] == full
  {
    var next := StepPos(here, Preferred(g, here));
    GreedyPathSurvives(g, next);
    var rest := GreedyPath(g, next);
    assert GreedyPath(g, here)[1..] == rest == [next] + rest[1..];
    assert path + [next] + rest[1..] == path + ([next] + rest[1..]);
  }

  /** Every step of the greedy route is the move the table prefers: right
      exactly when the right neighbour needs no more HP than the one below. */
  lemma {:induction false} GreedyPathFollowsTable(g: seq<seq<int>>, p: Pos)
    requires IsGrid(g) && InGrid(g, p)
    ensures var path := GreedyPath(g, p);
      forall k :: 0 <= k < |path| - 1 ==>
        InGrid(g, path[k]) && path[k + 1] == StepPos(path[k], OptimalMove(Table(g), path[k].row, path[k].col))
    decreases |g| - p.row + |g[0]| - p.col
  {
    var path := GreedyPath(g, p);
    if p != Goal(g) {
      var next := StepPos(p, Preferred(g, p));
      var rest := GreedyPath(g, next);
      GreedyPathFollowsTable(g, next);
      GreedyPathSurvives(g, next);
      OptimalMoveIsPreferred(g, p);
      assert path == [p] + rest;
      forall k | 0 <= k < |path| - 1
        ensures InGrid(g, path[k]) && path[k + 1] == StepPos(path[k], OptimalMove(Table(g), path[k].row, path[k].col))
      {
        if k > 0 {
          assert path[k] == rest[k - 1] && path[k + 1] == rest[k];
        }
      }
    }
  }

  /** The route walk of the reconstruction: from the start, step right when
      the right neighbour needs no more HP than the one below (a missing
      neighbour needs `int.MaxValue`), otherwise down, until the goal. */
  method Reconstruct(g: seq<seq<int>>, dp: seq<seq<int>>) returns (path: seq<Pos>)
    requires IsGrid(g) && dp == Table(g)
    ensures path == GreedyPath(g, Pos(0, 0))
  {
    var m, n := |g|, |g[0]|;
    path := [Pos(0, 0)];
    var row, col := 0, 0;
    ghost var full := GreedyPath(g, Pos(0, 0));
    GreedyPathSurvives(g, Pos(0, 0));
    assert path + GreedyPath(g, Pos(0, 0))[1..] == full;

    while row < m - 1 || col < n - 1
      invariant 0 <= row < m && 0 <= col < n
      invariant path + GreedyPath(g, Pos(row, col))[1..] == full
      decreases m - row + n - col
    {
      var here := Pos(row, col);
      ghost var next := StepPos(here, Preferred(g, here));
      OptimalMoveIsPreferred(g, here);
      assert InGrid(g, next) && (next == Pos(row, col + 1) <==> OptimalMove(dp, row, col) == Right);
      GreedyStep(g, path, here, full);
      if NeedLe(NeedRight(dp, row, col), NeedDown(dp, row, col)) && col + 1 < n {
        col := col + 1;
      } else {
        row := row + 1;
      }
      assert Pos(row, col) == next;
      path := path + [Pos(row, col)];
    }
    assert GreedyPath(g, Pos(row, col)) == [Pos(row, col)];
  }

  /** Minimal starting HP and the route that always steps towards the
      neighbour needing less HP (right on ties). */
  method GetOptimalSolution(d: Dungeon) returns (minHp: int, path: seq<Pos>)
    requires Valid(d)
    ensures minHp == MinHp(d.grid, Pos(0, 0))
    ensures path == GreedyPath(d.grid, Pos(0, 0))
    ensures |path| == M(d) + N(d) - 1
    ensures path[0] == Pos(0, 0)
    ensures Survives(d.grid, path, minHp)
  {
    var dp := Build(d.grid);
    minHp := dp[0][0];
    path := Reconstruct(d.grid, dp);
    GreedyPathSurvives(d.grid, Pos(0, 0));
    SurvivingPathLength(d.grid, path, minHp);
  }

  // ---------------------------------------------------------------------
  // Generators: drawing and post-processing.
  // ---------------------------------------------------------------------

  /** Every cell drawn in row-major order from `Next(vmin, vmax + 1)`. */
  method GenerateRandom(m: int, n: int, vmin: int, vmax: int, rng: Rng) returns (d: Dungeon, rest: Rng)
    requires m >= 1 && n >= 1 && vmin <= vmax
    ensures Valid(d) && HasShape(d.grid, m, n)
    ensures forall i, j :: 0 <= i < m && 0 <= j < n ==> vmin <= d.grid[i][j] <= vmax
    ensures forall i, j :: 0 <= i < m && 0 <= j < n ==>
      d.grid[i][j] == Next(rng.(pos := rng.pos + i * n + j), vmin, vmax + 1).0
    ensures d == FromGrid(d.grid)
    ensures rest == rng.(pos := rng.pos + m * n)
  {
    var g: seq<seq<int>> := [];
    rest := rng;
    var i := 0;
    while i < m
      invariant 0 <= i <= m
      invariant HasShape(g, i, n)
      invariant rest == rng.(pos := rng.pos + i * n)
      invariant forall k, l :: 0 <= k < i && 0 <= l < n ==>
        g[k][l] == Next(rng.(pos := rng.pos + k * n + l), vmin, vmax + 1).0
    {
      var row: seq<int> := [];
      var j := 0;
      while j < n
        invariant 0 <= j <= n
        invariant |row| == j
        invariant rest == rng.(pos := rng.pos + i * n + j)
        invariant forall l :: 0 <= l < j ==>
          row[l] == Next(rng.(pos := rng.pos + i * n + l), vmin, vmax + 1).0
      {
        var v;
        v, rest := Next(rest, vmin, vmax + 1).0, Next(rest, vmin, vmax + 1).1;
        row := row + [v];
        j := j + 1;
      }
      g := g + [row];
      i := i + 1;
    }
    d := FromGrid(g);
  }

  /** Post-processing of the balanced generator on the drawn cells: the start
      is raised to at least 0, then the goal to at least 10, and the requested
      difficulty label is stamped. */
  function GenerateBalanced(m: int, n: int, difficulty: string, drawn: seq<seq<int>>): (d: Dungeon)
    requires m >= 1 && n >= 1 && HasShape(drawn, m, n)
    ensures Valid(d) && HasShape(d.grid, m, n)
    ensures d.grid[0][0] >= 0 && d.grid[m - 1][n - 1] >= 10
    ensures (m, n) != (1, 1) ==> d.grid[0][0] == Max(0, drawn[0][0])
    ensures d.grid[m - 1][n - 1] == Max(10, if (m, n) == (1, 1) then Max(0, drawn[0][0]) else drawn[m - 1][n - 1])
    ensures forall i, j :: 0 <= i < m && 0 <= j < n && (i, j) != (0, 0) && (i, j) != (m - 1, n - 1) ==>
      d.grid[i][j] == drawn[i][j]
    ensures d.difficultyLevel == difficulty
    ensures d == FromGrid(d.grid).(difficultyLevel := difficulty)
  {
    FromGrid(Balance(m, n, drawn)).(difficultyLevel := difficulty)
  }

  /** The drawn cells with the start raised to 0 and then the goal to 10. */
  function Balance(m: int, n: int, drawn: seq<seq<int>>): (g: seq<seq<int>>)
    requires m >= 1 && n >= 1 && HasShape(drawn, m, n)
    ensures IsGrid(g) && HasShape(g, m, n)
    ensures g[0][0] >= 0 && g[m - 1][n - 1] >= 10
    ensures (m, n) != (1, 1) ==> g[0][0] == Max(0, drawn[0][0])
    ensures g[m - 1][n - 1] == Max(10, if (m, n) == (1, 1) then Max(0, drawn[0][0]) else drawn[m - 1][n - 1])
    ensures forall i, j :: 0 <= i < m && 0 <= j < n && (i, j) != (0, 0) && (i, j) != (m - 1, n - 1) ==>
      g[i][j] == drawn[i][j]
  {
    var g1 := drawn[0 := drawn[0][0 := Max(0, drawn[0][0])]];
    g1[m - 1 := g1[m - 1][n - 1 := Max(10, g1[m - 1][n - 1])]]
  }

  /** Running the post-processing again changes nothing. */
  lemma GenerateBalancedIdempotent(m: int, n: int, difficulty: string, drawn: seq<seq<int>>)
    requires m >= 1 && n >= 1 && HasShape(drawn, m, n)
    ensures GenerateBalanced(m, n, difficulty, GenerateBalanced(m, n, difficulty, drawn).grid)
         == GenerateBalanced(m, n, difficulty, drawn)
  {
    BalanceIdempotent(m, n, drawn);
  }

  lemma BalanceIdempotent(m: int, n: int, drawn: seq<seq<int>>)
    requires m >= 1 && n >= 1 && HasShape(drawn, m, n)
    ensures Balance(m, n, Balance(m, n, drawn)) == Balance(m, n, drawn)
  {
    var once := Balance(m, n, drawn);
    var twice := Balance(m, n, once);
    forall i | 0 <= i < m
      ensures twice[i] == once[i]
    {
      assert |twice[i]| == |once[i]| == n;
      forall j | 0 <= j < n
        ensures twice[i][j] == once[i][j]
      {
      }
    }
  }


  // ---------------------------------------------------------------------
  // The default dungeon.
  // ---------------------------------------------------------------------

  const DefaultGrid: seq<seq<int>> := [
    [-2, -3, 3, 8, -5],
    [-5, -10, 1, -2, 12],
    [10, 30, -5, -8, 3],
    [-1, 5, -15, 20, -3],
    [7, -4, 2, -1, 10]
  ]

  function CreateDefault(): (d: Dungeon)
    ensures Valid(d) && M(d) == 5 && N(d) == 5 && d.grid == DefaultGrid
  {
    FromGrid(DefaultGrid)
  }

  /** `g` holds the default dungeon's cells. Stated cell by cell, so that the
      table entries below are computed one step at a time. */
  predicate DefaultCells(g: seq<seq<int>>)
  {
    HasShape(g, 5, 5) && forall i, j :: 0 <= i < 5 && 0 <= j < 5 ==> g[i][j] == DefaultGrid[i][j]
  }

  /** Row `i` of the default dungeon's minimal-HP table, given as `want`. */
  predicate DefaultRowIs(g: seq<seq<int>>, i: int, want: seq<int>)
    requires DefaultCells(g) && 0 <= i < 5 && |want| == 5
  {
    forall j :: 0 <= j < 5 ==> MinHp(g, Pos(i, j)) == want[j]
  }

  lemma DefaultRow4(g: seq<seq<int>>)
    requires DefaultCells(g)
    ensures DefaultRowIs(g, 4, [1, 5, 1, 2, 1])
  {
    assert MinHp(g, Pos(4, 4)) == 1;
    assert MinHp(g, Pos(4, 3)) == 2;
    assert MinHp(g, Pos(4, 2)) == 1;
    assert MinHp(g, Pos(4, 1)) == 5;
    assert MinHp(g, Pos(4, 0)) == 1;
  }

  lemma DefaultRow3(g: seq<seq<int>>)
    requires DefaultCells(g)
    ensures DefaultRowIs(g, 3, [2, 1, 16, 1, 4])
  {
    DefaultRow4(g);
    assert MinHp(g, Pos(3, 4)) == 4;
    assert MinHp(g, Pos(3, 3)) == 1;
    assert MinHp(g, Pos(3, 2)) == 16;
    assert MinHp(g, Pos(3, 1)) == 1;
    assert MinHp(g, Pos(3, 0)) == 2;
  }

  lemma DefaultRow2(g: seq<seq<int>>)
    requires DefaultCells(g)
    ensures DefaultRowIs(g, 2, [1, 1, 14, 9, 1])
  {
    DefaultRow3(g);
    assert MinHp(g, Pos(2, 4)) == 1;
    assert MinHp(g, Pos(2, 3)) == 9;
    assert MinHp(g, Pos(2, 2)) == 14;
    assert MinHp(g, Pos(2, 1)) == 1;
    assert MinHp(g, Pos(2, 0)) == 1;
  }

  lemma DefaultRow1(g: seq<seq<int>>)
    requires DefaultCells(g)
    ensures DefaultRowIs(g, 1, [6, 11, 2, 3, 1])
  {
    DefaultRow2(g);
    assert MinHp(g, Pos(1, 4)) == 1;
    assert MinHp(g, Pos(1, 3)) == 3;
    assert MinHp(g, Pos(1, 2)) == 2;
    assert MinHp(g, Pos(1, 1)) == 11;
    assert MinHp(g, Pos(1, 0)) == 6;
  }

  lemma DefaultRow0(g: seq<seq<int>>)
    requires DefaultCells(g)
    ensures DefaultRowIs(g, 0, [6, 4, 1, 1, 6])
  {
    DefaultRow1(g);
    assert MinHp(g, Pos(0, 4)) == 6;
    assert MinHp(g, Pos(0, 3)) == 1;
    assert MinHp(g, Pos(0, 2)) == 1;
    assert MinHp(g, Pos(0, 1)) == 4;
    assert MinHp(g, Pos(0, 0)) == 6;
  }

  /** A dungeon with the default cells needs 6 HP to enter, and its top-left
      3x3 block is the classic example whose own table starts at 7. */
  lemma DefaultDungeonNeeds(g: seq<seq<int>>)
    requires DefaultCells(g)
    ensures MinHp(g, Pos(0, 0)) == 6
    ensures MinHp([g[0][..3], g[1][..3], g[2][..3]], Pos(0, 0)) == 7
  {
    DefaultRow0(g);
    assert MinHp(g, Pos(0, 0)) == [6, 4, 1, 1, 6][0];
    DefaultBlockNeedsSeven([g[0][..3], g[1][..3], g[2][..3]]);
  }

  /** The built-in dungeon has the default cells. */
  lemma CreateDefaultCells()
    ensures DefaultCells(CreateDefault().grid)
  {
  }


}

=== FILE: game_config.dfy ===
/** Plain data of the turn-based game: configuration, tiles, players and the
    game state, mirroring the records of `Models/GameConfig.cs`. */
module GameConfig {
  import opened Grids

  const EasyLevel := "Easy"
  const NormalLevel := "Normal"
  const HardLevel := "Hard"
  const NightmareLevel := "Nightmare"

  const ClassicMode := "Classic"
  const SurvivalMode := "Survival"
  const TimeAttackMode := "Time Attack"
  const AdventureMode := "Adventure"

  /** The agent tier read by move selection when nobody has chosen one. */
  const DefaultAIDifficulty := "Intermediate"

  datatype TileType =
    | Normal | Trap | PowerUp | Teleporter | MovingPlatform
    | KeyTile | LockedDoor | BossTile | Checkpoint

  /** One cell of the game board. The source's property bag is only ever used
      for a teleporter's destination, which `target` carries. */
  datatype Tile = Tile(
    value: int,
    kind: TileType,
    target: Option<Pos>,
    isRevealed: bool,
    isVisited: bool,
    specialEffect: string,
    effectDuration: int)

  const DefaultTile := Tile(0, Normal, None, false, false, "", 0)

  datatype Player = Player(
    name: string,
    health: int,
    maxHealth: int,
    row: int,
    col: int,
    score: int,
    keys: int,
    lives: int,
    powerUps: seq<string>,
    stats: map<string, int>,
    hasShield: bool,
    shieldDuration: int,
    canFly: bool,
    flyDuration: int)

  const DefaultPlayer := Player("Player", 100, 100, 0, 0, 0, 0, 3, [], map[], false, 0, false, 0)

  datatype Config = Config(
    difficultyLevel: string,
    gameMode: string,
    gridSize: int,
    enablePowerUps: bool,
    enableSpecialTiles: bool,
    enableMultiplayer: bool,
    timeLimit: int,
    lives: int)

  const DefaultConfig := Config(NormalLevel, ClassicMode, 5, true, true, false, 300, 3)

  /** The running game. `elapsedSeconds` is the elapsed time recorded by the
      most recent accepted move; the clock itself is an input of each move. */
  datatype GameState = GameState(
    grid: seq<seq<Tile>>,
    players: seq<Player>,
    currentPlayerIndex: int,
    config: Config,
    isGameOver: bool,
    isWon: bool,
    gameOverReason: string,
    elapsedSeconds: real)

  /** Value range and tile chances of one difficulty level. */
  datatype LevelSettings = LevelSettings(min: int, max: int, trapChance: real, powerUpChance: real)

  const DifficultySettings: map<string, LevelSettings> := map[
    EasyLevel := LevelSettings(-5, 15, 0.3, 0.4),
    NormalLevel := LevelSettings(-10, 20, 0.4, 0.3),
    HardLevel := LevelSettings(-20, 25, 0.5, 0.2),
    NightmareLevel := LevelSettings(-30, 30, 0.6, 0.1)
  ]
}

=== FILE: game_engine.dfy ===
/** The turn-based engine of the board game (`Services/GameEngine.cs`): one
    move of one player, accepted or rejected, the tile effects it triggers,
    the lives and respawn rule, and the turn rotation. The wall clock is an
    input of each move; messages and change events are not modelled. */
module GameEngine {
  import opened Grids
  import opened GameConfig

  // ---------------------------------------------------------------------
  // Integer conversions of the source
  // ---------------------------------------------------------------------

  /** C# integer division by a positive divisor: the quotient is truncated
      toward zero, so the remainder takes the sign of the dividend. */
  function Div(a: int, b: int): (q: int)
    requires b > 0
    ensures 0 <= a ==> 0 <= a - q * b < b
    ensures a < 0 ==> -b < a - q * b <= 0
  {
    if a >= 0 then a / b else -((-a) / b)
  }

  /** The `(int)` cast of a double: truncation toward zero. */
  function Truncate(x: real): (k: int)
    ensures 0.0 <= x ==> k as real <= x < k as real + 1.0
    ensures x < 0.0 ==> k as real - 1.0 < x <= k as real
  {
    if x >= 0.0 then x.Floor else -((-x).Floor)
  }

  // ---------------------------------------------------------------------
  // Boards
  // ---------------------------------------------------------------------

  /** A tile without its two visibility flags. */
  function Plain(t: Tile): Tile
  {
    t.(isRevealed := false, isVisited := false)
  }

  /** `g'` is `g` with at most the visibility flags of some tiles changed. */
  predicate SameBoard(g: seq<seq<Tile>>, g': seq<seq<Tile>>)
  {
    && |g'| == |g|
    && (forall i :: 0 <= i < |g| ==> |g'[i]| == |g[i]|)
    && forall i, j :: 0 <= i < |g| && 0 <= j < |g[i]| && j < |g'[i]| ==> Plain(g'[i][j]) == Plain(g[i][j])
  }

  /** A teleporter's destination, when it has one, lies on the board. */
  predicate TileOk(t: Tile, size: int)
  {
    t.kind == Teleporter && t.target.Some? ==> InBounds(size, size, t.target.value)
  }

  predicate TeleportersInside(g: seq<seq<Tile>>, size: int)
  {
    forall i, j :: 0 <= i < |g| && 0 <= j < |g[i]| ==> TileOk(g[i][j], size)
  }

  lemma SameBoardKeepsTeleporters(g: seq<seq<Tile>>, g': seq<seq<Tile>>, size: int)
    requires SameBoard(g, g') && TeleportersInside(g, size)
    ensures TeleportersInside(g', size)
  {
    forall i, j | 0 <= i < |g'| && 0 <= j < |g'[i]|
      ensures TileOk(g'[i][j], size)
    {
      assert Plain(g'[i][j]) == Plain(g[i][j]);
      assert TileOk(g[i][j], size);
    }
  }

  /** Whether cell (i, j) lies in the clamped square the source's loops visit. */
  predicate InWindow(size: int, centerRow: int, centerCol: int, radius: int, i: int, j: int)
  {
    && Max(0, centerRow - radius) <= i <= Min(size - 1, centerRow + radius)
    && Max(0, centerCol - radius) <= j <= Min(size - 1, centerCol + radius)
  }

  function RevealRow(row: seq<Tile>, size: int, i: int, centerRow: int, centerCol: int, radius: int): (r: seq<Tile>)
    ensures |r| == |row|
    ensures forall j :: 0 <= j < |row| ==>
      r[j] == if InWindow(size, centerRow, centerCol, radius, i, j) then row[j].(isRevealed := true) else row[j]
  {
    seq(|row|, j requires 0 <= j < |row| =>
      if InWindow(size, centerRow, centerCol, radius, i, j) then row[j].(isRevealed := true) else row[j])
  }

  /** Reveals every tile within Chebyshev distance `radius` of the centre
      cell; nothing else on the board changes. */
  function RevealNearbyTiles(g: seq<seq<Tile>>, size: int, centerRow: int, centerCol: int, radius: int): (g': seq<seq<Tile>>)
    requires HasShape(g, size, size)
    ensures HasShape(g', size, size)
    ensures SameBoard(g, g')
    ensures forall i, j :: 0 <= i < size && 0 <= j < size ==>
      && g'[i][j].isVisited == g[i][j].isVisited
      && (g'[i][j].isRevealed <==>
            g[i][j].isRevealed || (Abs(i - centerRow) <= radius && Abs(j - centerCol) <= radius))
  {
    seq(size, i requires 0 <= i < size && HasShape(g, size, size) =>
      RevealRow(g[i], size, i, centerRow, centerCol, radius))
  }

  /** The board with the entered tile marked visited and revealed. */
  function Visit(g: seq<seq<Tile>>, size: int, p: Pos): (g': seq<seq<Tile>>)
    requires HasShape(g, size, size) && InBounds(size, size, p)
    ensures HasShape(g', size, size)
    ensures SameBoard(g, g')
    ensures g'[p.row][p.col].isVisited && g'[p.row][p.col].isRevealed
    ensures forall i, j :: 0 <= i < size && 0 <= j < size && Pos(i, j) != p ==> g'[i][j] == g[i][j]
  {
    g[p.row := g[p.row][p.col := g[p.row][p.col].(isVisited := true, isRevealed := true)]]
  }

  // ---------------------------------------------------------------------
  // Players
  // ---------------------------------------------------------------------

  const CheckpointRowKey := "LastCheckpointRow"
  const CheckpointColKey := "LastCheckpointCol"
  const StrengthKey := "StrengthBonus"
  const SpeedKey := "SpeedBonus"

  /** A saved checkpoint has both coordinates or neither. */
  predicate Paired(stats: map<string, int>)
  {
    CheckpointRowKey in stats <==> CheckpointColKey in stats
  }

  predicate NoDuplicates(s: seq<string>)
  {
    forall i, j :: 0 <= i < j < |s| ==> s[i] != s[j]
  }

  /** What the engine keeps true of every player on a board of side `size`. */
  predicate PlayerOk(p: Player, size: int)
  {
    && InBounds(size, size, Pos(p.row, p.col))
    && p.keys >= 0
    && p.lives >= 0
    && p.maxHealth >= 10
    && NoDuplicates(p.powerUps)
    && p.shieldDuration >= 0 && (p.hasShield <==> p.shieldDuration > 0)
    && p.flyDuration >= 0 && (p.canFly <==> p.flyDuration > 0)
    && Paired(p.stats)
    && (CheckpointRowKey in p.stats ==>
          InBounds(size, size, Pos(p.stats[CheckpointRowKey], p.stats[CheckpointColKey])))
  }

  /** The respawn cell: the last saved checkpoint, or the start. */
  function FindLastCheckpoint(p: Player): (c: Pos)
    requires Paired(p.stats)
    ensures CheckpointRowKey in p.stats ==> c == Pos(p.stats[CheckpointRowKey], p.stats[CheckpointColKey])
    ensures CheckpointRowKey !in p.stats ==> c == Pos(0, 0)
  {
    if CheckpointRowKey in p.stats then Pos(p.stats[CheckpointRowKey], p.stats[CheckpointColKey])
    else Pos(0, 0)
  }

  lemma CheckpointInside(p: Player, size: int)
    requires PlayerOk(p, size)
    ensures InBounds(size, size, FindLastCheckpoint(p))
  {
  }

  /** Starting health of a difficulty level; unknown levels play as Normal. */
  function GetInitialHealth(difficulty: string): (h: int)
    ensures difficulty == EasyLevel ==> h == 150
    ensures difficulty == HardLevel ==> h == 75
    ensures difficulty == NightmareLevel ==> h == 50
    ensures difficulty !in {EasyLevel, HardLevel, NightmareLevel} ==> h == 100
  {
    if difficulty == EasyLevel then 150
    else if difficulty == NormalLevel then 100
    else if difficulty == HardLevel then 75
    else if difficulty == NightmareLevel then 50
    else 100
  }

  /** Harder levels start with strictly less health, and every level starts alive. */
  lemma InitialHealthOrdered()
    ensures GetInitialHealth(EasyLevel) > GetInitialHealth(NormalLevel)
            > GetInitialHealth(HardLevel) > GetInitialHealth(NightmareLevel) > 0
    ensures forall d :: GetInitialHealth(d) >= GetInitialHealth(NightmareLevel)
  {
  }

  /** The effect of a trap; Freeze and Confusion are left to the user
      interface and change nothing here. */
  function ApplyTrapEffect(p: Player, effect: string): (r: Player)
    ensures r == p.(health := r.health, maxHealth := r.maxHealth)
    ensures effect == "Poison" ==> r.health == p.health - 20 && r.maxHealth == p.maxHealth
    ensures effect == "Weakness" ==>
      r.health == p.health && r.maxHealth >= 10 && r.maxHealth <= Max(10, p.maxHealth)
      && (p.maxHealth >= 20 ==> r.maxHealth == p.maxHealth - 10)
      && (p.maxHealth <= 20 ==> r.maxHealth == 10)
    ensures effect == "Bleed" && p.maxHealth >= 0 ==>
      r.maxHealth == p.maxHealth && 10 * (p.health - r.health) <= p.maxHealth < 10 * (p.health - r.health + 1)
    ensures effect !in {"Poison", "Weakness", "Bleed"} ==> r == p
    ensures p.maxHealth >= 0 ==> r.health <= p.health
    ensures p.maxHealth >= 10 ==> r.maxHealth >= 10
  {
    if effect == "Poison" then p.(health := p.health - 20)
    else if effect == "Weakness" then p.(maxHealth := Max(10, p.maxHealth - 10))
    else if effect == "Bleed" then p.(health := p.health - Div(p.maxHealth, 10))
    else p
  }

  /** Shield and flight each last one move less; a flag clears when its
      counter reaches zero. */
  function UpdatePowerUpDurations(p: Player): (r: Player)
    ensures r == p.(hasShield := r.hasShield, shieldDuration := r.shieldDuration,
                    canFly := r.canFly, flyDuration := r.flyDuration)
    ensures r.shieldDuration == if p.shieldDuration > 0 then p.shieldDuration - 1 else p.shieldDuration
    ensures r.flyDuration == if p.flyDuration > 0 then p.flyDuration - 1 else p.flyDuration
    ensures r.hasShield <==> p.hasShield && p.shieldDuration != 1
    ensures r.canFly <==> p.canFly && p.flyDuration != 1
    ensures p.shieldDuration >= 0 && (p.hasShield <==> p.shieldDuration > 0) ==>
      r.shieldDuration >= 0 && (r.hasShield <==> r.shieldDuration > 0)
    ensures p.flyDuration >= 0 && (p.canFly <==> p.flyDuration > 0) ==>
      r.flyDuration >= 0 && (r.canFly <==> r.flyDuration > 0)
  {
    var p1 := if p.shieldDuration > 0 then
      var d := p.shieldDuration - 1;
      p.(shieldDuration := d, hasShield := if d == 0 then false else p.hasShield)
    else p;
    if p1.flyDuration > 0 then
      var d := p1.flyDuration - 1;
      p1.(flyDuration := d, canFly := if d == 0 then false else p1.canFly)
    else p1
  }

  /** `k` consecutive duration updates. */
  function Tick(p: Player, k: nat): Player
    decreases k
  {
    if k == 0 then p else Tick(UpdatePowerUpDurations(p), k - 1)
  }

  /** A shield granted for `d` moves is gone after exactly `d` updates, and
      flight likewise. */
  lemma {:induction false} PowerUpsWearOff(p: Player, k: nat)
    requires p.shieldDuration >= 0 && (p.hasShield <==> p.shieldDuration > 0)
    requires p.flyDuration >= 0 && (p.canFly <==> p.flyDuration > 0)
    ensures Tick(p, k).shieldDuration == Max(0, p.shieldDuration - k)
    ensures Tick(p, k).flyDuration == Max(0, p.flyDuration - k)
    ensures Tick(p, k).hasShield <==> k < p.shieldDuration
    ensures Tick(p, k).canFly <==> k < p.flyDuration
    decreases k
  {
    if k > 0 {
      PowerUpsWearOff(UpdatePowerUpDurations(p), k - 1);
    }
  }

  /** What a power-up does to the player who picks it up. */
  function PowerUpEffect(p: Player, powerUp: string): (r: Player)
    ensures powerUp == "Shield" ==> r.hasShield && r.shieldDuration == 5
    ensures powerUp == "Flight" ==> r.canFly && r.flyDuration == 3
    ensures powerUp == "HealthBoost" ==> r.maxHealth == p.maxHealth + 20 && r.health == p.health + 20
    ensures powerUp != "HealthBoost" ==> r.maxHealth == p.maxHealth && r.health == p.health
    ensures powerUp == "Strength" ==> StrengthKey in r.stats && r.stats[StrengthKey] == 10
    ensures powerUp == "Speed" ==> SpeedKey in r.stats && r.stats[SpeedKey] == 3
    ensures forall k :: k != StrengthKey && k != SpeedKey ==>
      (k in r.stats <==> k in p.stats) && (k in p.stats ==> r.stats[k] == p.stats[k])
    ensures r.row == p.row && r.col == p.col && r.keys == p.keys && r.powerUps == p.powerUps
    ensures r.lives == p.lives && r.score == p.score && r.name == p.name
    ensures powerUp !in {"Shield", "HealthBoost", "Flight", "Strength", "Speed"} ==> r == p
    ensures p.shieldDuration >= 0 && (p.hasShield <==> p.shieldDuration > 0) ==>
      r.shieldDuration >= 0 && (r.hasShield <==> r.shieldDuration > 0)
    ensures p.flyDuration >= 0 && (p.canFly <==> p.flyDuration > 0) ==>
      r.flyDuration >= 0 && (r.canFly <==> r.flyDuration > 0)
  {
    if powerUp == "Shield" then p.(hasShield := true, shieldDuration := 5)
    else if powerUp == "HealthBoost" then p.(maxHealth := p.maxHealth + 20, health := p.health + 20)
    else if powerUp == "Flight" then p.(canFly := true, flyDuration := 3)
    else if powerUp == "Strength" then p.(stats := p.stats[StrengthKey := 10])
    else if powerUp == "Speed" then p.(stats := p.stats[SpeedKey := 3])
    else p
  }

  /** The power-up list with `powerUp` appended unless already held. */
  function RecordPowerUp(held: seq<string>, powerUp: string): (r: seq<string>)
    ensures powerUp in r
    ensures forall x :: x in r <==> x in held || x == powerUp
    ensures |held| <= |r| <= |held| + 1 && r[..|held|] == held
    ensures NoDuplicates(held) ==> NoDuplicates(r)
  {
    if powerUp in held then held else held + [powerUp]
  }

  /** The effect of a power-up, then its record in the player's list; only
      Vision touches the board. */
  function ApplyPowerUp(p: Player, powerUp: string, g: seq<seq<Tile>>, size: int): (r: (Player, seq<seq<Tile>>))
    requires HasShape(g, size, size)
    ensures HasShape(r.1, size, size) && SameBoard(g, r.1)
    ensures powerUp != "Vision" ==> r.1 == g
    ensures powerUp == "Vision" ==> forall i, j :: 0 <= i < size && 0 <= j < size ==>
      (r.1[i][j].isRevealed <==> g[i][j].isRevealed || (Abs(i - p.row) <= 2 && Abs(j - p.col) <= 2))
    ensures r.0 == PowerUpEffect(p, powerUp).(powerUps := RecordPowerUp(p.powerUps, powerUp))
  {
    var g' := if powerUp == "Vision" then RevealNearbyTiles(g, size, p.row, p.col, 2) else g;
    var q := PowerUpEffect(p, powerUp);
    (q.(powerUps := RecordPowerUp(q.powerUps, powerUp)), g')
  }

  /** The health and score change of entering a tile, then its special
      effect, then the power-up countdown. */
  function ProcessTileEffect(p: Player, tile: Tile, g: seq<seq<Tile>>, size: int): (r: (Player, seq<seq<Tile>>))
    requires HasShape(g, size, size)
    ensures HasShape(r.1, size, size) && SameBoard(g, r.1)
    ensures r.0.score == p.score + Max(0, tile.value)
    ensures tile.kind != Trap && tile.kind != PowerUp ==>
      r.0.health == p.health + tile.value && r.0.maxHealth == p.maxHealth
    ensures tile.kind == KeyTile ==> r.0.keys == p.keys + 1
    ensures tile.kind == LockedDoor ==> r.0.keys == if p.keys > 0 then p.keys - 1 else p.keys
    ensures tile.kind != KeyTile && tile.kind != LockedDoor ==> r.0.keys == p.keys
    ensures tile.kind == Teleporter && tile.target.Some? ==> Pos(r.0.row, r.0.col) == tile.target.value
    ensures !(tile.kind == Teleporter && tile.target.Some?) ==> r.0.row == p.row && r.0.col == p.col
    ensures Paired(p.stats) ==> Paired(r.0.stats)
    ensures tile.kind == Checkpoint ==> Paired(r.0.stats) && FindLastCheckpoint(r.0) == Pos(p.row, p.col)
    ensures r.0.lives == p.lives && r.0.name == p.name
  {
    var e := SpecialEffect(Entering(p, tile), tile, g, size);
    (UpdatePowerUpDurations(e.0), e.1)
  }

  /** The player after the tile's value is added to health and, when
      positive, to score. */
  function Entering(p: Player, tile: Tile): (q: Player)
    ensures q == p.(health := q.health, score := q.score)
    ensures q.health - p.health == tile.value
    ensures q.score >= p.score && (tile.value >= 0 <==> q.score - p.score == tile.value)
    ensures tile.value < 0 ==> q.score == p.score
  {
    p.(health := p.health + tile.value, score := p.score + Max(0, tile.value))
  }

  /** The special effect of a tile's type on a player who has just entered it. */
  function SpecialEffect(q: Player, tile: Tile, g: seq<seq<Tile>>, size: int): (r: (Player, seq<seq<Tile>>))
    requires HasShape(g, size, size)
    ensures HasShape(r.1, size, size) && SameBoard(g, r.1)
    ensures r.0.score == q.score && r.0.lives == q.lives && r.0.name == q.name
    ensures tile.kind != Trap && tile.kind != PowerUp ==>
      r.0.health == q.health && r.0.maxHealth == q.maxHealth
    ensures tile.kind == KeyTile ==> r.0.keys == q.keys + 1
    ensures tile.kind == LockedDoor ==> r.0.keys == if q.keys > 0 then q.keys - 1 else q.keys
    ensures tile.kind != KeyTile && tile.kind != LockedDoor ==> r.0.keys == q.keys
    ensures tile.kind == Teleporter && tile.target.Some? ==> Pos(r.0.row, r.0.col) == tile.target.value
    ensures !(tile.kind == Teleporter && tile.target.Some?) ==> r.0.row == q.row && r.0.col == q.col
    ensures Paired(q.stats) ==> Paired(r.0.stats)
    ensures tile.kind == Checkpoint ==> Paired(r.0.stats) && FindLastCheckpoint(r.0) == Pos(q.row, q.col)
  {
    match tile.kind
    case Trap => (ApplyTrapEffect(q, tile.specialEffect), g)
    case PowerUp => ApplyPowerUp(q, tile.specialEffect, g, size)
    case KeyTile => (q.(keys := q.keys + 1), g)
    case LockedDoor => (if q.keys > 0 then q.(keys := q.keys - 1) else q, g)
    case Teleporter =>
      (if tile.target.Some? then q.(row := tile.target.value.row, col := tile.target.value.col) else q, g)
    case Checkpoint => (q.(stats := q.stats[CheckpointRowKey := q.row][CheckpointColKey := q.col]), g)
    case _ => (q, g)
  }

  /** Entering a tile keeps a well-kept player well kept. */
  lemma ProcessKeepsPlayerOk(p: Player, tile: Tile, g: seq<seq<Tile>>, size: int)
    requires HasShape(g, size, size) && PlayerOk(p, size) && TileOk(tile, size)
    ensures PlayerOk(ProcessTileEffect(p, tile, g, size).0, size)
  {
    var q := Entering(p, tile);
    EnteringKeepsPlayerOk(p, tile, size);
    SpecialEffectKeepsPlayerOk(q, tile, g, size);
    UpdateKeepsPlayerOk(SpecialEffect(q, tile, g, size).0, size);
  }

  lemma EnteringKeepsPlayerOk(p: Player, tile: Tile, size: int)
    requires PlayerOk(p, size)
    ensures PlayerOk(Entering(p, tile), size)
  {
  }

  lemma SpecialEffectKeepsPlayerOk(q: Player, tile: Tile, g: seq<seq<Tile>>, size: int)
    requires HasShape(g, size, size) && PlayerOk(q, size) && TileOk(tile, size)
    ensures PlayerOk(SpecialEffect(q, tile, g, size).0, size)
  {
    match tile.kind
    case PowerUp =>
      assert CheckpointRowKey != StrengthKey && CheckpointRowKey != SpeedKey;
      assert CheckpointColKey != StrengthKey && CheckpointColKey != SpeedKey;
    case Checkpoint =>
    case _ =>
  }

  lemma UpdateKeepsPlayerOk(q: Player, size: int)
    requires PlayerOk(q, size)
    ensures PlayerOk(UpdatePowerUpDurations(q), size)
  {
  }

  /** The bonus for reaching the goal: twice the health, 50 per power-up
      held, and 10 per whole second left of the time limit. */
  function CalculateBonusScore(p: Player, timeLimit: int, elapsedSeconds: real): (b: int)
    ensures b >= 2 * p.health + 50 * |p.powerUps|
    ensures elapsedSeconds >= 0.0 ==> b <= 2 * p.health + 50 * |p.powerUps| + 10 * Max(0, timeLimit)
    ensures elapsedSeconds >= timeLimit as real ==> b == 2 * p.health + 50 * |p.powerUps|
    ensures elapsedSeconds >= 0.0 ==>
      var left := (b - 2 * p.health - 50 * |p.powerUps|) / 10;
      && b - 2 * p.health - 50 * |p.powerUps| == 10 * left
      && (left == 0 <==> elapsedSeconds >= timeLimit as real)
      && (left > 0 ==> (timeLimit - left) as real <= elapsedSeconds < (timeLimit - left + 1) as real)
  {
    p.health * 2 + |p.powerUps| * 50 + Max(0, timeLimit - Truncate(elapsedSeconds)) * 10
  }

  /** A later finish never earns a larger bonus. */
  lemma BonusDecreasesWithTime(p: Player, timeLimit: int, e1: real, e2: real)
    requires e1 <= e2
    ensures CalculateBonusScore(p, timeLimit, e2) <= CalculateBonusScore(p, timeLimit, e1)
  {
    assert Truncate(e1) <= Truncate(e2);
  }

  /** Finishing `k` whole seconds into the game, and before second `k + 1`,
      earns 10 points for each of the `timeLimit - k` seconds left, if any. */
  lemma BonusAtWholeSeconds(p: Player, timeLimit: int, elapsedSeconds: real, k: int)
    requires 0 <= k && k as real <= elapsedSeconds < (k + 1) as real
    ensures CalculateBonusScore(p, timeLimit, elapsedSeconds)
         == 2 * p.health + 50 * |p.powerUps| + 10 * Max(0, timeLimit - k)
  {
    var t := Truncate(elapsedSeconds);
    assert t as real <= elapsedSeconds < t as real + 1.0;
    assert t == k;
  }

  // ---------------------------------------------------------------------
  // Moves
  // ---------------------------------------------------------------------

  /** The engine's invariant over a running game. */
  predicate WellFormed(s: GameState)
  {
    var size := s.config.gridSize;
    && size >= 1
    && HasShape(s.grid, size, size)
    && |s.players| >= 1 && 0 <= s.currentPlayerIndex < |s.players|
    && TeleportersInside(s.grid, size)
    && (forall k :: 0 <= k < |s.players| ==> PlayerOk(s.players[k], size))
    && (s.isWon ==> s.isGameOver)
    && (!s.isGameOver ==> forall k :: 0 <= k < |s.players| ==> s.players[k].lives >= 1)
  }

  /** What a move needs to run: a square board of the configured side and an
      existing player whose saved checkpoint, if any, is complete. */
  predicate Playable(s: GameState, id: int)
  {
    && HasShape(s.grid, s.config.gridSize, s.config.gridSize)
    && 0 <= id < |s.players|
    && Paired(s.players[id].stats)
  }

  function Target(s: GameState, id: int, dr: int, dc: int): Pos
    requires 0 <= id < |s.players|
  {
    Pos(s.players[id].row + dr, s.players[id].col + dc)
  }

  /** The four reasons a move is refused. */
  predicate Rejected(s: GameState, id: int, dr: int, dc: int)
    requires Playable(s, id)
  {
    var p, t, size := s.players[id], Target(s, id, dr, dc), s.config.gridSize;
    || s.isGameOver
    || !InBounds(size, size, t)
    || (!p.canFly && s.config.gameMode == ClassicMode && (dr < 0 || dc < 0))
    || (s.grid[t.row][t.col].kind == LockedDoor && p.keys == 0)
  }

  /** The moving player and the board right after the entered tile took effect. */
  function Entered(s: GameState, id: int, t: Pos): (r: (Player, seq<seq<Tile>>))
    requires Playable(s, id) && InBounds(s.config.gridSize, s.config.gridSize, t)
    ensures HasShape(r.1, s.config.gridSize, s.config.gridSize) && SameBoard(s.grid, r.1)
    ensures r.1[t.row][t.col].isVisited && r.1[t.row][t.col].isRevealed
    ensures Paired(r.0.stats)
  {
    var size := s.config.gridSize;
    var g := Visit(s.grid, size, t);
    ProcessTileEffect(s.players[id].(row := t.row, col := t.col), g[t.row][t.col], g, size)
  }

  /** The respawn rule: a player whose health is gone loses a life and, while
      lives remain, restarts at the last checkpoint with half the maximum
      health; the last life lost ends the game. */
  function LifeCheck(s: GameState, id: int, q: Player): (r: GameState)
    requires 0 <= id < |s.players| && Paired(q.stats)
    ensures r == s.(players := r.players, isGameOver := r.isGameOver, gameOverReason := r.gameOverReason)
    ensures |r.players| == |s.players|
    ensures forall k :: 0 <= k < |s.players| && k != id ==> r.players[k] == s.players[k]
    ensures q.health > 0 ==> r.players[id] == q && r.isGameOver == s.isGameOver
    ensures q.health <= 0 && q.lives - 1 > 0 ==>
      && r.players[id] == q.(lives := q.lives - 1, row := r.players[id].row, col := r.players[id].col,
                             health := r.players[id].health)
      && Pos(r.players[id].row, r.players[id].col) == FindLastCheckpoint(q)
      && r.players[id].health == Div(q.maxHealth, 2)
      && r.isGameOver == s.isGameOver
    ensures q.health <= 0 && q.lives - 1 <= 0 ==>
      r.players[id] == q.(lives := q.lives - 1) && r.isGameOver
  {
    if q.health <= 0 then
      var lives := q.lives - 1;
      if lives > 0 then
        var c := FindLastCheckpoint(q);
        s.(players := s.players[id := q.(lives := lives, row := c.row, col := c.col, health := Div(q.maxHealth, 2))])
      else
        s.(players := s.players[id := q.(lives := lives)], isGameOver := true,
           gameOverReason := q.name + " ran out of health!")
    else s.(players := s.players[id := q])
  }

  /** An accepted move up to the clock: enter the target tile, win on the
      bottom-right cell (judged on the entered cell, even if a teleporter
      moved the player on, and before the health check), then apply the
      respawn rule. */
  function Settle(s: GameState, id: int, t: Pos): (r: GameState)
    requires Playable(s, id) && InBounds(s.config.gridSize, s.config.gridSize, t)
    ensures var size := s.config.gridSize;
      && HasShape(r.grid, size, size) && SameBoard(s.grid, r.grid)
      && r.grid[t.row][t.col].isVisited && r.grid[t.row][t.col].isRevealed
      && r.config == s.config && r.currentPlayerIndex == s.currentPlayerIndex
      && r.elapsedSeconds == s.elapsedSeconds
      && |r.players| == |s.players|
      && (forall k :: 0 <= k < |s.players| && k != id ==> r.players[k] == s.players[k])
      && (r.isWon <==> s.isWon || t == Pos(size - 1, size - 1))
    ensures var size, p, q := s.config.gridSize, Entered(s, id, t).0, r.players[id];
      && (p.health > 0 ==> q == p.(score := q.score))
      && q.score == p.score + (if t == Pos(size - 1, size - 1)
                               then CalculateBonusScore(p, s.config.timeLimit, s.elapsedSeconds) else 0)
      && (p.health <= 0 ==> q.lives == p.lives - 1)
      && (p.health <= 0 ==> q == p.(score := q.score, lives := q.lives, row := q.row, col := q.col, health := q.health))
      && (p.health <= 0 && q.lives <= 0 ==> Pos(q.row, q.col) == Pos(p.row, p.col))
      && (p.health <= 0 && q.lives > 0 ==>
            Pos(q.row, q.col) == FindLastCheckpoint(p) && q.health == Div(p.maxHealth, 2))
      && (r.isGameOver <==> s.isGameOver || t == Pos(size - 1, size - 1) || (p.health <= 0 && q.lives <= 0))
  {
    var size := s.config.gridSize;
    var e := Entered(s, id, t);
    var q := e.0;
    var won := t.row == size - 1 && t.col == size - 1;
    var q1 := if won then q.(score := q.score + CalculateBonusScore(q, s.config.timeLimit, s.elapsedSeconds)) else q;
    LifeCheck(s.(grid := e.1, isWon := s.isWon || won, isGameOver := s.isGameOver || won), id, q1)
  }

  /** An accepted move: the settled move, then the elapsed time `now` is
      recorded and the time limit of Time Attack applied. */
  function Accept(s: GameState, id: int, t: Pos, now: real): (r: GameState)
    requires Playable(s, id) && InBounds(s.config.gridSize, s.config.gridSize, t)
    ensures var size := s.config.gridSize;
      && HasShape(r.grid, size, size) && SameBoard(s.grid, r.grid)
      && r.grid[t.row][t.col].isVisited && r.grid[t.row][t.col].isRevealed
      && r.config == s.config && r.currentPlayerIndex == s.currentPlayerIndex
      && r.elapsedSeconds == now
      && |r.players| == |s.players|
      && (forall k :: 0 <= k < |s.players| && k != id ==> r.players[k] == s.players[k])
      && (r.isWon <==> s.isWon || t == Pos(size - 1, size - 1))
    ensures var size, p, q := s.config.gridSize, Entered(s, id, t).0, r.players[id];
      && (p.health > 0 ==> q == p.(score := q.score))
      && q.score == p.score + (if t == Pos(size - 1, size - 1)
                               then CalculateBonusScore(p, s.config.timeLimit, s.elapsedSeconds) else 0)
      && (p.health <= 0 ==> q.lives == p.lives - 1)
      && (p.health <= 0 ==> q == p.(score := q.score, lives := q.lives, row := q.row, col := q.col, health := q.health))
      && (p.health <= 0 && q.lives <= 0 ==> Pos(q.row, q.col) == Pos(p.row, p.col))
      && (p.health <= 0 && q.lives > 0 ==>
            Pos(q.row, q.col) == FindLastCheckpoint(p) && q.health == Div(p.maxHealth, 2))
      && (r.isGameOver <==>
            || s.isGameOver
            || t == Pos(size - 1, size - 1)
            || (p.health <= 0 && q.lives <= 0)
            || (s.config.gameMode == TimeAttackMode && now > s.config.timeLimit as real))
  {
    var s3 := Settle(s, id, t).(elapsedSeconds := now);
    if s.config.gameMode == TimeAttackMode && now > s.config.timeLimit as real then
      s3.(isGameOver := true, gameOverReason := "Time's up!")
    else s3
  }

  /** `MovePlayer`: the game after player `id` tries to move by (dr, dc) at
      elapsed time `now`, and whether the move was accepted. A refused move
      changes nothing. */
  function MovePlayer(s: GameState, id: int, dr: int, dc: int, now: real): (r: (GameState, bool))
    requires Playable(s, id)
    ensures !r.1 <==> Rejected(s, id, dr, dc)
    ensures !r.1 ==> r.0 == s
    ensures r.1 ==> r.0 == Accept(s, id, Target(s, id, dr, dc), now)
  {
    if s.isGameOver then (s, false)
    else
      var p := s.players[id];
      var t := Target(s, id, dr, dc);
      var size := s.config.gridSize;
      if t.row < 0 || t.row >= size || t.col < 0 || t.col >= size then (s, false)
      else if !p.canFly && s.config.gameMode == ClassicMode && (dr < 0 || dc < 0) then (s, false)
      else if s.grid[t.row][t.col].kind == LockedDoor && p.keys == 0 then (s, false)
      else (Accept(s, id, t, now), true)
  }

  /** Every move, accepted or not, keeps the engine's invariant; in
      particular keys never go negative, the maximum health stays at least
      10, power-up lists stay duplicate-free and everybody stays on the board. */
  lemma MoveKeepsWellFormed(s: GameState, id: int, dr: int, dc: int, now: real)
    requires WellFormed(s) && 0 <= id < |s.players|
    ensures Playable(s, id) && WellFormed(MovePlayer(s, id, dr, dc, now).0)
  {
    assert PlayerOk(s.players[id], s.config.gridSize);
    if !Rejected(s, id, dr, dc) {
      AcceptKeepsWellFormed(s, id, Target(s, id, dr, dc), now);
    }
  }

  /** Off the goal, an accepted move adds to the mover's score exactly the
      positive part of the entered tile's value, whatever else happens. */
  lemma MoveScoreOffGoal(s: GameState, id: int, dr: int, dc: int, now: real)
    requires Playable(s, id)
    requires var t := Target(s, id, dr, dc);
      !Rejected(s, id, dr, dc) && t != Pos(s.config.gridSize - 1, s.config.gridSize - 1)
    ensures var t := Target(s, id, dr, dc);
      MovePlayer(s, id, dr, dc, now).0.players[id].score
        == s.players[id].score + Max(0, s.grid[t.row][t.col].value)
  {
    var t, size := Target(s, id, dr, dc), s.config.gridSize;
    var g := Visit(s.grid, size, t);
    assert Plain(g[t.row][t.col]) == Plain(s.grid[t.row][t.col]);
    assert g[t.row][t.col].value == s.grid[t.row][t.col].value;
  }

  /** Two games that differ only in their clock: reaching the goal from the
      one that started later never ends with a higher score. */
  lemma EarlierWinScoresMore(s: GameState, id: int, e1: real, e2: real, now: real)
    requires Playable(s, id) && s.config.gridSize >= 1 && e1 <= e2
    ensures var goal := Pos(s.config.gridSize - 1, s.config.gridSize - 1);
      Accept(s.(elapsedSeconds := e2), id, goal, now).players[id].score
        <= Accept(s.(elapsedSeconds := e1), id, goal, now).players[id].score
  {
    var goal := Pos(s.config.gridSize - 1, s.config.gridSize - 1);
    var p := Entered(s, id, goal).0;
    assert Entered(s.(elapsedSeconds := e1), id, goal).0 == p;
    assert Entered(s.(elapsedSeconds := e2), id, goal).0 == p;
    BonusDecreasesWithTime(p, s.config.timeLimit, e1, e2);
  }

  lemma EnteredOk(s: GameState, id: int, t: Pos)
    requires WellFormed(s) && 0 <= id < |s.players| && InBounds(s.config.gridSize, s.config.gridSize, t)
    ensures Playable(s, id) && PlayerOk(Entered(s, id, t).0, s.config.gridSize)
  {
    var size := s.config.gridSize;
    assert PlayerOk(s.players[id], size);
    var g := Visit(s.grid, size, t);
    assert TileOk(s.grid[t.row][t.col], size);
    assert Plain(g[t.row][t.col]) == Plain(s.grid[t.row][t.col]);
    ProcessKeepsPlayerOk(s.players[id].(row := t.row, col := t.col), g[t.row][t.col], g, size);
  }

  lemma AcceptKeepsWellFormed(s: GameState, id: int, t: Pos, now: real)
    requires WellFormed(s) && !s.isGameOver && 0 <= id < |s.players|
    requires InBounds(s.config.gridSize, s.config.gridSize, t)
    ensures Playable(s, id) && WellFormed(Accept(s, id, t, now))
  {
    var size := s.config.gridSize;
    var r := Accept(s, id, t, now);
    SettledPlayerOk(s, id, t);
    SameBoardKeepsTeleporters(s.grid, r.grid, size);
    assert forall k :: 0 <= k < |r.players| && k != id ==> r.players[k] == s.players[k];
    assert forall k :: 0 <= k < |r.players| ==> PlayerOk(r.players[k], size);
  }

  /** The player who made an accepted move is still well kept. */
  lemma SettledPlayerOk(s: GameState, id: int, t: Pos)
    requires WellFormed(s) && !s.isGameOver && 0 <= id < |s.players|
    requires InBounds(s.config.gridSize, s.config.gridSize, t)
    ensures Playable(s, id) && PlayerOk(Settle(s, id, t).players[id], s.config.gridSize)
  {
    var size := s.config.gridSize;
    EnteredOk(s, id, t);
    var p := Entered(s, id, t).0;
    assert s.players[id].lives >= 1;
    CheckpointInside(p, size);
  }


  /** Dying with lives to spare right after saving a checkpoint respawns the
      player on that checkpoint. */
  lemma CheckpointRespawn(s: GameState, id: int, dr: int, dc: int, now: real)
    requires Playable(s, id) && !Rejected(s, id, dr, dc)
    requires var t := Target(s, id, dr, dc); s.grid[t.row][t.col].kind == Checkpoint
    requires Entered(s, id, Target(s, id, dr, dc)).0.health <= 0
    requires s.players[id].lives > 1
    ensures var q := MovePlayer(s, id, dr, dc, now).0.players[id];
      Pos(q.row, q.col) == Target(s, id, dr, dc)
  {
    var t := Target(s, id, dr, dc);
    var g := Visit(s.grid, s.config.gridSize, t);
    assert Plain(g[t.row][t.col]) == Plain(s.grid[t.row][t.col]);
  }

  /** A refused move to a locked door happens exactly when the player holds
      no key, so an accepted move never leaves a negative key count behind. */
  lemma LockedDoorNeedsKey(s: GameState, id: int, dr: int, dc: int, now: real)
    requires Playable(s, id) && !s.isGameOver && s.players[id].keys >= 0
    requires var t, size := Target(s, id, dr, dc), s.config.gridSize;
      InBounds(size, size, t) && s.grid[t.row][t.col].kind == LockedDoor
    requires s.players[id].canFly || s.config.gameMode != ClassicMode || (dr >= 0 && dc >= 0)
    ensures MovePlayer(s, id, dr, dc, now).1 <==> s.players[id].keys > 0
    ensures MovePlayer(s, id, dr, dc, now).1 ==>
      Entered(s, id, Target(s, id, dr, dc)).0.keys == s.players[id].keys - 1
  {
    var t := Target(s, id, dr, dc);
    var g := Visit(s.grid, s.config.gridSize, t);
    assert Plain(g[t.row][t.col]) == Plain(s.grid[t.row][t.col]);
  }

  // ---------------------------------------------------------------------
  // Turns
  // ---------------------------------------------------------------------

  /** Passes the turn to the next player, cyclically; a single player keeps it. */
  function SwitchToNextPlayer(s: GameState): (s': GameState)
    requires 0 <= s.currentPlayerIndex
    ensures s' == s.(currentPlayerIndex := s'.currentPlayerIndex)
    ensures s.currentPlayerIndex < |s.players| ==> s'.currentPlayerIndex < |s.players|
    ensures |s.players| <= 1 ==> s' == s
    ensures 0 <= s'.currentPlayerIndex
  {
    if |s.players| > 1 then s.(currentPlayerIndex := (s.currentPlayerIndex + 1) % |s.players|) else s
  }

  lemma NextIndex(s: GameState)
    requires |s.players| > 1 && 0 <= s.currentPlayerIndex < |s.players|
    ensures SwitchToNextPlayer(s) ==
      s.(currentPlayerIndex := if s.currentPlayerIndex + 1 < |s.players| then s.currentPlayerIndex + 1 else 0)
  {
    var i, n := s.currentPlayerIndex, |s.players|;
    if i + 1 < n {
      assert (i + 1) % n == i + 1;
    } else {
      assert (i + 1) % n == 0;
    }
  }

  function SwitchTimes(s: GameState, k: nat): (s': GameState)
    requires 0 <= s.currentPlayerIndex
    ensures 0 <= s'.currentPlayerIndex
    decreases k
  {
    if k == 0 then s else SwitchTimes(SwitchToNextPlayer(s), k - 1)
  }

  /** Within one round of `k <= count` switches among several players the
      turn advances `k` places, wrapping past the last player to the first. */
  lemma {:induction false} SwitchCycles(s: GameState, k: nat)
    requires |s.players| > 1 && 0 <= s.currentPlayerIndex < |s.players| && k <= |s.players|
    ensures var i, n := s.currentPlayerIndex, |s.players|;
      SwitchTimes(s, k).currentPlayerIndex == if i + k < n then i + k else i + k - n
    ensures SwitchTimes(s, k) == s.(currentPlayerIndex := SwitchTimes(s, k).currentPlayerIndex)
    decreases k
  {
    if k > 0 {
      var n := |s.players|;
      var i := s.currentPlayerIndex;
      var s1 := SwitchToNextPlayer(s);
      NextIndex(s);
      SwitchCycles(s1, k - 1);
      assert SwitchTimes(s, k) == SwitchTimes(s1, k - 1);
    }
  }

  /** A full round of switches gives the turn back, and every player gets a
      turn within it. */
  lemma EveryPlayerGetsTurn(s: GameState, j: int)
    requires |s.players| > 1 && 0 <= s.currentPlayerIndex < |s.players| && 0 <= j < |s.players|
    ensures SwitchTimes(s, |s.players|) == s
    ensures exists k :: 0 <= k < |s.players| && SwitchTimes(s, k).currentPlayerIndex == j
  {
    var n, i := |s.players|, s.currentPlayerIndex;
    SwitchCycles(s, n);
    var k := if j >= i then j - i else j - i + n;
    SwitchCycles(s, k);
    assert SwitchTimes(s, k).currentPlayerIndex == j;
  }
}

=== FILE: grids.dfy ===
/** Shared vocabulary of the dungeon core: optional values, cell positions,
    the two agent moves, rectangular grids and their row-major enumeration. */
module Grids {

  datatype Option<+T> = None | Some(value: T)

  /** A cell coordinate, row first. */
  datatype Pos = Pos(row: int, col: int)

  /** The only two moves of the classic game and of the learning agent. */
  datatype Move = Right | Down

  /** The cell entered by taking `mv` from `p`. */
  function StepPos(p: Pos, mv: Move): Pos
  {
    match mv
    case Right => Pos(p.row, p.col + 1)
    case Down => Pos(p.row + 1, p.col)
  }

  /** `q` is reached from `p` by one right or one down move. */
  predicate IsStep(p: Pos, q: Pos)
  {
    q == StepPos(p, Right) || q == StepPos(p, Down)
  }

  /** `g` has exactly `m` rows of `n` entries. */
  predicate HasShape<T>(g: seq<seq<T>>, m: int, n: int)
  {
    |g| == m && forall i :: 0 <= i < |g| ==> |g[i]| == n
  }

  /** A rectangular grid with at least one row and one column. */
  predicate IsGrid<T>(g: seq<seq<T>>)
  {
    |g| >= 1 && |g[0]| >= 1 && HasShape(g, |g|, |g[0]|)
  }

  predicate InBounds(m: int, n: int, p: Pos)
  {
    0 <= p.row < m && 0 <= p.col < n
  }

  predicate InGrid<T>(g: seq<seq<T>>, p: Pos)
    requires IsGrid(g)
  {
    InBounds(|g|, |g[0]|, p)
  }

  /** The bottom-right cell, the goal of every route. */
  function Goal<T>(g: seq<seq<T>>): (p: Pos)
    requires IsGrid(g)
    ensures InGrid(g, p)
  {
    Pos(|g| - 1, |g[0]| - 1)
  }

  /** Entry at a position of the grid. */
  function At<T>(g: seq<seq<T>>, p: Pos): T
    requires IsGrid(g) && InGrid(g, p)
  {
    g[p.row][p.col]
  }

  const Int32Min: int := -0x8000_0000
  const Int32Max: int := 0x7fff_ffff

  /** Every cell fits a 32-bit signed integer, as the source's `int[,]` guarantees. */
  predicate IsInt32Grid(g: seq<seq<int>>)
  {
    forall i, j :: 0 <= i < |g| && 0 <= j < |g[i]| ==> Int32Min <= g[i][j] <= Int32Max
  }

  /** Strict row-major order on positions. */
  predicate Before(p: Pos, q: Pos)
  {
    p.row < q.row || (p.row == q.row && p.col < q.col)
  }

  /** Every earlier element of `s` is `less` than every later one. */
  predicate OrderedBy(s: seq<Pos>, less: (Pos, Pos) -> bool)
  {
    forall i, j :: 0 <= i < j < |s| ==> less(s[i], s[j])
  }

  predicate StrictlyRowMajor(s: seq<Pos>)
  {
    OrderedBy(s, Before)
  }

  /** Cells `(i, 0) .. (i, n-1)` of one row. */
  function RowCells(i: int, n: nat): (s: seq<Pos>)
    ensures |s| == n
    ensures forall k :: 0 <= k < n ==> s[k] == Pos(i, k)
  {
    seq(n, k => Pos(i, k))
  }

  /** All cells of rows `i .. m-1`, in the order of the source's nested `for` loops. */
  function CellsFrom(i: int, m: int, n: nat): (s: seq<Pos>)
    decreases m - i
  {
    if i >= m then [] else RowCells(i, n) + CellsFrom(i + 1, m, n)
  }

  function Cells(m: int, n: nat): seq<Pos>
  {
    CellsFrom(0, m, n)
  }

  lemma {:induction false} CellsFromMembership(i: int, m: int, n: nat, p: Pos)
    requires 0 <= i
    ensures p in CellsFrom(i, m, n) <==> i <= p.row < m && 0 <= p.col < n
    decreases m - i
  {
    if i < m {
      CellsFromMembership(i + 1, m, n, p);
      assert p in RowCells(i, n) <==> p.row == i && 0 <= p.col < n;
    }
  }

  lemma {:induction false} CellsFromOrdered(i: int, m: int, n: nat)
    requires 0 <= i
    ensures StrictlyRowMajor(CellsFrom(i, m, n))
    ensures forall p :: p in CellsFrom(i, m, n) ==> i <= p.row
    decreases m - i
  {
    if i < m {
      CellsFromOrdered(i + 1, m, n);
      var rest := CellsFrom(i + 1, m, n);
      var s := RowCells(i, n) + rest;
      forall a, b | 0 <= a < b < |s|
        ensures Before(s[a], s[b])
      {
        if b < n {
        } else if a < n {
          assert s[b] == rest[b - n];
          assert rest[b - n] in rest;
        } else {
          assert s[a] == rest[a - n] && s[b] == rest[b - n];
        }
      }
    }
  }

  /** The row-major enumeration holds exactly the in-bounds cells, each once, in order. */
  lemma CellsSpec(m: int, n: nat)
    ensures StrictlyRowMajor(Cells(m, n))
    ensures forall p :: p in Cells(m, n) <==> InBounds(m, n, p)
  {
    CellsFromOrdered(0, m, n);
    forall p
      ensures p in Cells(m, n) <==> InBounds(m, n, p)
    {
      CellsFromMembership(0, m, n, p);
    }
  }

  /** The elements of `s` that satisfy `keep`, in their original order. */
  function Filter(s: seq<Pos>, keep: Pos -> bool): (r: seq<Pos>)
    ensures |r| <= |s|
    ensures forall x :: x in r <==> x in s && keep(x)
  {
    if |s| == 0 then []
    else (if keep(s[0]) then [s[0]] else []) + Filter(s[1..], keep)
  }

  /** Filtering keeps the relative order of the survivors. */
  lemma {:induction false} FilterKeepsOrder(s: seq<Pos>, keep: Pos -> bool, less: (Pos, Pos) -> bool)
    requires OrderedBy(s, less)
    ensures OrderedBy(Filter(s, keep), less)
  {
    if |s| > 0 {
      FilterKeepsOrder(s[1..], keep, less);
      var tail := Filter(s[1..], keep);
      var r := Filter(s, keep);
      if keep(s[0]) {
        forall a, b | 0 <= a < b < |r|
          ensures less(r[a], r[b])
        {
          if a == 0 {
            assert r[b] == tail[b - 1];
            assert tail[b - 1] in s[1..];
          } else {
            assert r[a] == tail[a - 1] && r[b] == tail[b - 1];
          }
        }
      }
    }
  }

  /** Row-major concatenation of the rows of `g`. */
  function Flatten<T>(g: seq<seq<T>>): (s: seq<T>)
  {
    if |g| == 0 then [] else g[0] + Flatten(g[1..])
  }

  lemma {:induction false} FlattenSnoc<T>(g: seq<seq<T>>, i: nat)
    requires i < |g|
    ensures Flatten(g[..i + 1]) == Flatten(g[..i]) + g[i]
  {
    if i == 0 {
      assert g[..1][1..] == [];
    } else {
      assert g[..i + 1][1..] == g[1..][..i];
      assert g[..i][1..] == g[1..][..i - 1];
      FlattenSnoc(g[1..], i - 1);
    }
  }

  lemma {:induction false} FlattenLength<T>(g: seq<seq<T>>, n: nat)
    requires HasShape(g, |g|, n)
    ensures |Flatten(g)| == |g| * n
  {
    if |g| > 0 {
      FlattenLength(g[1..], n);
    }
  }

  /** Every value in the flattening is some cell of the grid, and conversely. */
  lemma {:induction false} FlattenMembership(g: seq<seq<int>>, x: int)
    ensures x in Flatten(g) <==> exists i, j :: 0 <= i < |g| && 0 <= j < |g[i]| && g[i][j] == x
  {
    if |g| > 0 {
      FlattenMembership(g[1..], x);
      if x in Flatten(g[1..]) {
        var i, j :| 0 <= i < |g[1..]| && 0 <= j < |g[1..][i]| && g[1..][i][j] == x;
        assert g[i + 1][j] == x;
      }
      if exists i, j :: 0 <= i < |g| && 0 <= j < |g[i]| && g[i][j] == x {
        var i, j :| 0 <= i < |g| && 0 <= j < |g[i]| && g[i][j] == x;
        if i == 0 {
          assert g[0][j] in g[0];
        } else {
          assert g[1..][i - 1][j] == x;
        }
      }
    }
  }

  function Max(a: int, b: int): int { if a >= b then a else b }
  function Abs(x: int): int { if x < 0 then -x else x }
  function Min(a: int, b: int): int { if a <= b then a else b }
}

=== FILE: path_search.dfy ===
/** The health-constrained best-first search of the dungeon: entries are
    expanded in order of `-health + Manhattan distance to the end`, each cell
    is expanded at most once, and moves that would leave the walker with no
    health are pruned unless they enter the end cell. */
module PathSearch {
  import opened Grids
  import opened Dungeons

  /** A frontier entry: the cell reached, the health there and the route so far. */
  datatype Entry = Entry(pos: Pos, health: int, path: seq<Pos>)

  /** The ordering key of the frontier; lower is better. */
  function Score(e: Entry, end: Pos): int
  {
    -e.health + Abs(e.pos.row - end.row) + Abs(e.pos.col - end.col)
  }

  /** Index of the first entry of minimal score, the one a stable sort puts first. */
  function FirstBest(open: seq<Entry>, end: Pos): (k: nat)
    requires |open| >= 1
    ensures k < |open|
    ensures forall i :: 0 <= i < |open| ==> Score(open[k], end) <= Score(open[i], end)
    ensures forall i :: 0 <= i < k ==> Score(open[k], end) < Score(open[i], end)
  {
    if |open| == 1 then 0
    else
      var k := FirstBest(open[..|open| - 1], end);
      assert forall i :: 0 <= i < |open| - 1 ==> open[..|open| - 1][i] == open[i];
      if Score(open[|open| - 1], end) < Score(open[k], end) then |open| - 1 else k
  }

  /** Total of the cell values along `cells`. */
  function Gain(g: seq<seq<int>>, cells: seq<Pos>): int
    requires IsGrid(g)
    requires forall k :: 0 <= k < |cells| ==> InGrid(g, cells[k])
  {
    if |cells| == 0 then 0
    else Gain(g, cells[..|cells| - 1]) + At(g, cells[|cells| - 1])
  }

  /** A route from `start` whose every step enters an in-bounds orthogonal
      neighbour of the previous cell. */
  predicate RouteFrom(g: seq<seq<int>>, start: Pos, path: seq<Pos>)
    requires IsGrid(g)
  {
    && |path| >= 1
    && path[0] == start
    && forall k :: 1 <= k < |path| ==>
         InGrid(g, path[k]) && IsNeighbour(path[k - 1].row, path[k - 1].col, path[k], false)
  }

  /** Health on entering cell `k` of the route, starting from `h0` at the start
      cell (whose own value is not applied). */
  function HealthAt(g: seq<seq<int>>, start: Pos, h0: int, path: seq<Pos>, k: int): int
    requires IsGrid(g) && RouteFrom(g, start, path) && 0 <= k < |path|
  {
    h0 + Gain(g, path[1..k + 1])
  }

  /** Every cell after the start other than the end cell is entered with
      positive health. */
  predicate Healthy(g: seq<seq<int>>, start: Pos, end: Pos, h0: int, path: seq<Pos>)
    requires IsGrid(g) && RouteFrom(g, start, path)
  {
    forall k :: 1 <= k < |path| ==> path[k] == end || HealthAt(g, start, h0, path, k) > 0
  }

  /** What the search keeps true of every frontier entry. */
  predicate EntryOk(g: seq<seq<int>>, start: Pos, end: Pos, h0: int, e: Entry)
    requires IsGrid(g)
  {
    && RouteFrom(g, start, e.path)
    && e.path[|e.path| - 1] == e.pos
    && e.health == HealthAt(g, start, h0, e.path, |e.path| - 1)
    && Healthy(g, start, end, h0, e.path)
  }

  /** Extending a good entry by one pruned-in move gives a good entry. */
  lemma ExtendEntry(g: seq<seq<int>>, start: Pos, end: Pos, h0: int, e: Entry, next: Pos)
    requires IsGrid(g) && EntryOk(g, start, end, h0, e)
    requires InGrid(g, next) && IsNeighbour(e.pos.row, e.pos.col, next, false)
    requires e.health + At(g, next) > 0 || next == end
    ensures EntryOk(g, start, end, h0, Entry(next, e.health + At(g, next), e.path + [next]))
  {
    var p := e.path;
    var q := p + [next];
    ExtendRoute(g, start, p, next);
    ExtendHealth(g, start, h0, p, next);
    assert Healthy(g, start, end, h0, q) by {
      forall k | 1 <= k < |q|
        ensures q[k] == end || HealthAt(g, start, h0, q, k) > 0
      {
        if k < |p| {
          assert q[k] == p[k];
        }
      }
    }
  }

  /** A route extended by an in-bounds orthogonal step is a route. */
  lemma ExtendRoute(g: seq<seq<int>>, start: Pos, p: seq<Pos>, next: Pos)
    requires IsGrid(g) && RouteFrom(g, start, p)
    requires InGrid(g, next) && IsNeighbour(p[|p| - 1].row, p[|p| - 1].col, next, false)
    ensures RouteFrom(g, start, p + [next])
  {
    var q := p + [next];
    forall k | 1 <= k < |q|
      ensures InGrid(g, q[k]) && IsNeighbour(q[k - 1].row, q[k - 1].col, q[k], false)
    {
      if k < |p| {
        assert q[k] == p[k] && q[k - 1] == p[k - 1];
      }
    }
  }

  /** Extending a route keeps the health along it and adds the new cell's
      value at the end. */
  lemma ExtendHealth(g: seq<seq<int>>, start: Pos, h0: int, p: seq<Pos>, next: Pos)
    requires IsGrid(g) && RouteFrom(g, start, p) && InGrid(g, next)
    requires RouteFrom(g, start, p + [next])
    ensures forall k :: 0 <= k < |p| ==> HealthAt(g, start, h0, p + [next], k) == HealthAt(g, start, h0, p, k)
    ensures HealthAt(g, start, h0, p + [next], |p|) == HealthAt(g, start, h0, p, |p| - 1) + At(g, next)
  {
    var q := p + [next];
    forall k | 0 <= k < |p|
      ensures HealthAt(g, start, h0, q, k) == HealthAt(g, start, h0, p, k)
    {
      assert q[1..k + 1] == p[1..k + 1];
    }
    var tail := q[1..|p| + 1];
    assert tail[..|tail| - 1] == p[1..|p|];
    assert tail[|tail| - 1] == next;
  }

  /** The cells the search can ever expand: the grid and the start cell. */
  function Universe(m: int, n: nat, start: Pos): (u: set<Pos>)
    ensures forall p :: p in u <==> InBounds(m, n, p) || p == start
  {
    CellsSpec(m, n);
    (set p | p in Cells(m, n)) + {start}
  }

  /** Every frontier entry is a good entry on a cell the search may expand. */
  predicate FrontierOk(g: seq<seq<int>>, start: Pos, end: Pos, h0: int, universe: set<Pos>, open: seq<Entry>)
    requires IsGrid(g)
  {
    forall e :: e in open ==> e.pos in universe && EntryOk(g, start, end, h0, e)
  }

  lemma RemoveKeepsFrontier(g: seq<seq<int>>, start: Pos, end: Pos, h0: int, universe: set<Pos>,
                            open: seq<Entry>, k: nat)
    requires IsGrid(g) && k < |open| && FrontierOk(g, start, end, h0, universe, open)
    ensures FrontierOk(g, start, end, h0, universe, open[..k] + open[k + 1..])
  {
    forall e | e in open[..k] + open[k + 1..]
      ensures e in open
    {
      if e in open[..k] {
      } else {
        assert e in open[k + 1..];
      }
    }
  }

  /** Removes and returns the first entry of minimal score. */
  method PopBest(g: seq<seq<int>>, start: Pos, end: Pos, h0: int, universe: set<Pos>, open: seq<Entry>)
    returns (best: Entry, rest: seq<Entry>)
    requires IsGrid(g) && |open| >= 1 && FrontierOk(g, start, end, h0, universe, open)
    ensures best in open && best.pos in universe && EntryOk(g, start, end, h0, best)
    ensures forall e :: e in open ==> Score(best, end) <= Score(e, end)
    ensures |rest| == |open| - 1
    ensures FrontierOk(g, start, end, h0, universe, rest)
    ensures |open| == 1 ==> best == open[0] && rest == []
  {
    var k := FirstBest(open, end);
    best := open[k];
    RemoveKeepsFrontier(g, start, end, h0, universe, open, k);
    rest := open[..k] + open[k + 1..];
  }

  /** Expansion of one entry: each valid orthogonal move to a cell not yet
      expanded is queued, unless it would leave no health and is not the end. */
  method Expand(d: Dungeon, start: Pos, end: Pos, h0: int, universe: set<Pos>,
                current: Entry, closed: set<Pos>, open: seq<Entry>) returns (open': seq<Entry>)
    requires Valid(d) && EntryOk(d.grid, start, end, h0, current)
    requires forall p :: InBounds(|d.grid|, |d.grid[0]|, p) ==> p in universe
    requires FrontierOk(d.grid, start, end, h0, universe, open)
    ensures FrontierOk(d.grid, start, end, h0, universe, open')
    ensures |open'| <= |open| + 4
  {
    var g := d.grid;
    var moves := GetValidMoves(d, current.pos.row, current.pos.col, false);
    open' := open;
    var idx := 0;
    while idx < |moves|
      invariant 0 <= idx <= |moves|
      invariant |open'| <= |open| + idx
      invariant FrontierOk(g, start, end, h0, universe, open')
    {
      var next := moves[idx];
      assert next in moves;
      if next !in closed {
        var newHealth := current.health + g[next.row][next.col];
        if !(newHealth <= 0 && next != end) {
          ExtendEntry(g, start, end, h0, current, next);
          open' := open' + [Entry(next, newHealth, current.path + [next])];
        }
      }
      idx := idx + 1;
    }
  }

  /** Best-first search from `start` to `end` with `initialHealth`. A
      non-empty result is a route of in-bounds orthogonal steps from start to
      end, entering every cell but the end with positive health and reaching
      the end with positive health; the empty route means none was found. */
  method FindPath(d: Dungeon, start: Pos, end: Pos, initialHealth: int) returns (path: seq<Pos>)
    requires Valid(d)
    ensures path != [] ==>
      && RouteFrom(d.grid, start, path)
      && path[|path| - 1] == end
      && Healthy(d.grid, start, end, initialHealth, path)
      && HealthAt(d.grid, start, initialHealth, path, |path| - 1) > 0
    ensures start == end && initialHealth > 0 ==> path == [start]
  {
    var g := d.grid;
    var m, n := |g|, |g[0]|;
    var universe := Universe(m, n, start);
    var initial := Entry(start, initialHealth, [start]);
    var open := [initial];
    var closed: set<Pos> := {};
    assert EntryOk(g, start, end, initialHealth, initial) by {
      assert [start][1..1] == [];
    }

    while |open| > 0
      invariant closed <= universe
      invariant FrontierOk(g, start, end, initialHealth, universe, open)
      invariant closed == {} ==> open == [initial]
      invariant start == end && initialHealth > 0 ==> closed == {}
      decreases |universe - closed|, |open|
    {
      var current;
      current, open := PopBest(g, start, end, initialHealth, universe, open);

      if current.pos == end && current.health > 0 {
        return current.path;
      }
      if current.pos in closed {
        continue;
      }
      ghost var before := universe - closed;
      closed := closed + {current.pos};
      assert universe - closed == before - {current.pos} && current.pos in before;
      open := Expand(d, start, end, initialHealth, universe, current, closed, open);
    }
    return [];
  }
}

=== FILE: qlearning.dfy ===
/** The tabular Q-learning agent that plays the classic right/down game. The
    agent is an explicit record: hyperparameters, a sparse table of action
    values keyed by (M, N, row, col), and the episode counters. Random draws
    come from an explicit `Rng`, and the difficulty tier is a parameter. */
module QLearning {
  import opened Grids
  import opened DpSolver
  import opened Dungeons
  import opened RandomSource

  datatype StateKey = StateKey(m: int, n: int, r: int, c: int)

  /** The two action values of a state, for `Right` and `Down`. */
  datatype QPair = QPair(right: real, down: real)

  const ZeroPair := QPair(0.0, 0.0)

  function Get(q: QPair, a: Move): real
  {
    match a
    case Right => q.right
    case Down => q.down
  }

  function Other(a: Move): Move
  {
    match a
    case Right => Down
    case Down => Right
  }

  function Put(q: QPair, a: Move, v: real): (q': QPair)
    ensures Get(q', a) == v && Get(q', Other(a)) == Get(q, Other(a))
  {
    match a
    case Right => q.(right := v)
    case Down => q.(down := v)
  }

  function RMax(a: real, b: real): real { if a >= b then a else b }
  function RAbs(x: real): real { if x < 0.0 then -x else x }

  datatype Agent = Agent(
    alpha: real,
    gamma: real,
    epsilon: real,
    table: map<StateKey, QPair>,
    episodes: int,
    accuracy: real,
    lastLoss: real)

  const InitialAgent := Agent(0.2, 0.95, 0.15, map[], 0, 0.0, 0.0)

  // ---------------------------------------------------------------------
  // Difficulty tiers.
  // ---------------------------------------------------------------------

  const Beginner := "Beginner"
  const Intermediate := "Intermediate"
  const Expert := "Expert"
  const Master := "Master"

  /** The (epsilon, alpha, gamma) a tier installs; unknown tiers get the
      Intermediate values. */
  function TierParams(tier: string): (p: (real, real, real))
    ensures 0.0 < p.0 < 1.0 && 0.0 < p.1 <= 1.0 && 0.0 < p.2 < 1.0
    ensures tier !in {Beginner, Expert, Master} ==> p == (0.2, 0.2, 0.9)
  {
    if tier == Beginner then (0.4, 0.1, 0.8)
    else if tier == Expert then (0.1, 0.3, 0.95)
    else if tier == Master then (0.05, 0.4, 0.98)
    else (0.2, 0.2, 0.9)
  }

  /** Installing a tier: its (epsilon, alpha, gamma) replace the agent's,
      and the table and the three counters are kept. */
  function WithTier(agent: Agent, tier: string): (a: Agent)
    ensures a.table == agent.table && a.episodes == agent.episodes && a.accuracy == agent.accuracy
    ensures a.lastLoss == agent.lastLoss
    ensures (a.epsilon, a.alpha, a.gamma) == TierParams(tier)
  {
    var (eps, alpha, gamma) := TierParams(tier);
    agent.(epsilon := eps, alpha := alpha, gamma := gamma)
  }

  /** Higher tiers explore less, learn faster and look further ahead. */
  lemma TiersAreOrdered()
    ensures TierParams(Beginner).0 > TierParams(Intermediate).0 > TierParams(Expert).0 > TierParams(Master).0
    ensures TierParams(Beginner).1 < TierParams(Intermediate).1 < TierParams(Expert).1 < TierParams(Master).1
    ensures TierParams(Beginner).2 < TierParams(Intermediate).2 < TierParams(Expert).2 < TierParams(Master).2
  {
  }

  // ---------------------------------------------------------------------
  // The action-value table.
  // ---------------------------------------------------------------------

  /** The stored pair of a state, or zeros when it has none. */
  function Lookup(table: map<StateKey, QPair>, s: StateKey): QPair
  {
    if s in table then table[s] else ZeroPair
  }

  /** `Q(state)`: the pair of the state, inserting a zero pair when missing. */
  function Q(agent: Agent, s: StateKey): (r: (QPair, Agent))
    ensures r.0 == Lookup(agent.table, s)
    ensures s !in agent.table ==> r.0 == ZeroPair
    ensures r.1 == agent.(table := r.1.table)
    ensures r.1.table.Keys == agent.table.Keys + {s}
    ensures forall k :: k in agent.table ==> r.1.table[k] == agent.table[k]
    ensures r.1.table[s] == r.0
  {
    if s in agent.table then (agent.table[s], agent)
    else (ZeroPair, agent.(table := agent.table[s := ZeroPair]))
  }

  /** The bootstrap target of a transition, read from the table before the update. */
  function Target(agent: Agent, reward: real, ns: StateKey, terminal: bool): real
  {
    if terminal then reward
    else var nq := Lookup(agent.table, ns); reward + agent.gamma * RMax(nq.right, nq.down)
  }

  /** One-step temporal-difference update of `q[s][a]`; returns the TD error. */
  function UpdateQ(agent: Agent, s: StateKey, a: Move, reward: real, ns: StateKey, terminal: bool): (r: (real, Agent))
    ensures r.0 == Target(agent, reward, ns, terminal) - Get(Lookup(agent.table, s), a)
    ensures r.1 == agent.(table := r.1.table)
    ensures r.1.table.Keys == agent.table.Keys + {s} + (if terminal then {} else {ns})
    ensures s in r.1.table
    ensures Get(r.1.table[s], a) == Get(Lookup(agent.table, s), a) + agent.alpha * r.0
    ensures Get(r.1.table[s], Other(a)) == Get(Lookup(agent.table, s), Other(a))
    ensures forall k :: k in r.1.table && k != s ==> r.1.table[k] == Lookup(agent.table, k)
  {
    var (q, agent1) := Q(agent, s);
    var (target, agent2) :=
      if terminal then (reward, agent1)
      else
        var (nq, agent2) := Q(agent1, ns);
        (reward + agent1.gamma * RMax(nq.right, nq.down), agent2);
    var tdErr := target - Get(q, a);
    (tdErr, agent2.(table := agent2.table[s := Put(q, a, Get(q, a) + agent2.alpha * tdErr)]))
  }

  lemma NonNegTimesNonPos(x: real, y: real)
    requires x >= 0.0 && y <= 0.0
    ensures x * y <= 0.0
  {
    assert x * (-y) >= 0.0;
  }

  /** `o + a * (t - o)` with `a` in [0, 1] lies between `o` and `t`. */
  lemma Interpolate(o: real, t: real, a: real, e: real, n: real)
    requires 0.0 <= a <= 1.0 && e == t - o && n == o + a * e
    ensures o <= t ==> o <= n <= t
    ensures t <= o ==> t <= n <= o
    ensures t - n == (1.0 - a) * e
    ensures a == 1.0 ==> n == t
  {
    assert (1.0 - a) * e == e - a * e;
    if o <= t {
      NonNegTimesNonPos(a, -e);
      NonNegTimesNonPos(1.0 - a, -e);
      assert a * (-e) == -(a * e);
      assert (1.0 - a) * (-e) == -((1.0 - a) * e);
    } else {
      NonNegTimesNonPos(a, e);
      NonNegTimesNonPos(1.0 - a, e);
    }
  }

  /** With a learning rate in [0, 1] the updated value lies between the old
      value and the target, and the remaining error shrinks by `1 - alpha`. */
  lemma UpdateMovesTowardTarget(agent: Agent, s: StateKey, a: Move, reward: real, ns: StateKey, terminal: bool)
    requires 0.0 <= agent.alpha <= 1.0
    ensures var old_ := Get(Lookup(agent.table, s), a);
      var target := Target(agent, reward, ns, terminal);
      var new_ := Get(UpdateQ(agent, s, a, reward, ns, terminal).1.table[s], a);
      && (old_ <= target ==> old_ <= new_ <= target)
      && (target <= old_ ==> target <= new_ <= old_)
      && target - new_ == (1.0 - agent.alpha) * (target - old_)
      && (agent.alpha == 1.0 ==> new_ == target)
  {
    var old_ := Get(Lookup(agent.table, s), a);
    var target := Target(agent, reward, ns, terminal);
    var update := UpdateQ(agent, s, a, reward, ns, terminal);
    Interpolate(old_, target, agent.alpha, update.0, Get(update.1.table[s], a));
  }

  // ---------------------------------------------------------------------
  // Move selection.
  // ---------------------------------------------------------------------

  /** Outcome of a selection: a move, or the null-table fault of the
      tie-break when no DP table was supplied. */
  datatype Choice = Picked(move: Move) | NullTable

  /** Neighbour cell value of the expert tie-break; `Lowest` is `double.MinValue`
      standing in for a neighbour off the grid. */
  datatype CellValue = Value(v: int) | Lowest

  predicate ValueGe(a: CellValue, b: CellValue)
  {
    match (a, b)
    case (Lowest, Lowest) => true
    case (Lowest, Value(_)) => false
    case (Value(_), Lowest) => true
    case (Value(x), Value(y)) => x >= y
  }

  function RightValue(d: Dungeon, r: int, c: int): CellValue
    requires Valid(d) && InGrid(d.grid, Pos(r, c))
  {
    if c + 1 < N(d) then Value(d.grid[r][c + 1]) else Lowest
  }

  function DownValue(d: Dungeon, r: int, c: int): CellValue
    requires Valid(d) && InGrid(d.grid, Pos(r, c))
  {
    if r + 1 < M(d) then Value(d.grid[r + 1][c]) else Lowest
  }

  /** The needs a tie-break compares: the table's entries for the right and
      lower neighbours, `OffGrid` for a neighbour beyond the edge. The table
      is read only for a neighbour on the grid, so at the goal no table is
      needed. */
  function TieNeeds(d: Dungeon, r: int, c: int, dp: Option<seq<seq<int>>>): (needs: (Need, Need))
    requires Valid(d) && InGrid(d.grid, Pos(r, c))
    requires dp.Some? ==> HasShape(dp.value, M(d), N(d))
    requires dp.Some? || Pos(r, c) == Goal(d.grid)
    ensures dp.Some? ==> IsGrid(dp.value) && needs == (NeedRight(dp.value, r, c), NeedDown(dp.value, r, c))
    ensures Pos(r, c) == Goal(d.grid) ==> needs == (OffGrid, OffGrid)
  {
    assert dp.Some? ==> |dp.value[0]| == N(d);
    (if c + 1 < N(d) then Finite(dp.value[r][c + 1]) else OffGrid,
     if r + 1 < M(d) then Finite(dp.value[r + 1][c]) else OffGrid)
  }

  /** Tie-break when both action values agree, given the two needs. */
  function BreakTie(d: Dungeon, r: int, c: int, needR: Need, needD: Need, tier: string, rng: Rng): (res: (Move, Rng))
    requires Valid(d) && InGrid(d.grid, Pos(r, c))
    ensures tier !in {Beginner, Expert, Master} ==>
      (res.0 == Right <==> NeedLe(needR, needD)) && res.1 == rng
    ensures (tier == Expert || tier == Master) && needR != needD ==>
      (res.0 == Right <==> NeedLe(needR, needD)) && res.1 == rng
    ensures (tier == Expert || tier == Master) && needR == needD ==>
      (res.0 == Right <==> ValueGe(RightValue(d, r, c), DownValue(d, r, c))) && res.1 == rng
    ensures tier == Beginner ==>
      res.1 == NextDouble(rng).1 &&
      (res.0 == Right <==> (NeedLe(needR, needD) <==> NextDouble(rng).0 >= 0.3))
  {
    var best := if NeedLe(needR, needD) then Right else Down;
    if tier == Beginner then
      var (u, rng1) := NextDouble(rng);
      (if u < 0.3 then Other(best) else best, rng1)
    else if tier == Expert || tier == Master then
      if needR == needD then
        (if ValueGe(RightValue(d, r, c), DownValue(d, r, c)) then Right else Down, rng)
      else (best, rng)
    else (best, rng)
  }

  /** Away from the goal every tier but Beginner breaks ties on a table of
      the grid's shape with a move that stays on the grid; on the DP table of
      the grid the default tier takes exactly the DP-optimal move. */
  lemma BreakTieLegal(d: Dungeon, r: int, c: int, dp: seq<seq<int>>, tier: string, rng: Rng)
    requires Valid(d) && InGrid(d.grid, Pos(r, c)) && HasShape(dp, M(d), N(d))
    requires Pos(r, c) != Goal(d.grid) && tier != Beginner
    ensures var needs := TieNeeds(d, r, c, Some(dp));
      InGrid(d.grid, StepPos(Pos(r, c), BreakTie(d, r, c, needs.0, needs.1, tier, rng).0))
    ensures var needs := TieNeeds(d, r, c, Some(dp));
      dp == Table(d.grid) && tier !in {Expert, Master} ==>
        BreakTie(d, r, c, needs.0, needs.1, tier, rng).0 == Preferred(d.grid, Pos(r, c))
  {
    assert |dp[0]| == N(d);
    var needs := TieNeeds(d, r, c, Some(dp));
    if dp == Table(d.grid) && tier !in {Expert, Master} {
      OptimalMoveIsPreferred(d.grid, Pos(r, c));
      assert BreakTie(d, r, c, needs.0, needs.1, tier, rng).0 == OptimalMove(dp, r, c);
    }
  }

  /** Exploration weight of a neighbour: its value, plus `100 - dp` when a
      table is given. */
  function Weight(d: Dungeon, dp: Option<seq<seq<int>>>, p: Pos): real
    requires Valid(d) && InGrid(d.grid, p)
    requires dp.Some? ==> HasShape(dp.value, M(d), N(d))
  {
    d.grid[p.row][p.col] as real + (if dp.Some? then 100.0 - dp.value[p.row][p.col] as real else 0.0)
  }

  /** The cumulative scan of the weighted draw; falls back to the last move. */
  function WeightedPick(moves: seq<Move>, weights: seq<real>, rand: real, i: nat, cumulative: real): (mv: Move)
    requires |moves| == |weights| >= 1 && i <= |moves|
    ensures mv in moves
    decreases |moves| - i
  {
    if i == |moves| then moves[|moves| - 1]
    else
      var cum := cumulative + RMax(0.0, weights[i]);
      if rand <= cum then moves[i] else WeightedPick(moves, weights, rand, i + 1, cum)
  }

  /** The draw between two legal moves with weights `wr` (right) and `wd`
      (down): uniform when the total weight is not positive, otherwise the
      cumulative scan of a draw scaled to the total. */
  function DrawTwo(wr: real, wd: real, rng: Rng): (res: (Move, Rng))
    ensures res.1 == rng.(pos := rng.pos + 1)
    ensures wr + wd <= 0.0 ==> (res.0 == Right <==> Next(rng, 0, 2).0 == 0)
  {
    var moves, weights := [Right, Down], [wr, wd];
    var total := wr + wd;
    if total <= 0.0 then
      var (k, rng1) := Next(rng, 0, |moves|);
      (moves[k], rng1)
    else
      var (u, rng1) := NextDouble(rng);
      (WeightedPick(moves, weights, u * total, 0, 0.0), rng1)
  }

  /** Exploration of the higher tiers: the only legal move when there is one,
      a weighted draw between the two otherwise, and right when none is legal. */
  function SmartRandomMove(d: Dungeon, r: int, c: int, dp: Option<seq<seq<int>>>, rng: Rng): (res: (Move, Rng))
    requires Valid(d) && InGrid(d.grid, Pos(r, c))
    requires dp.Some? ==> HasShape(dp.value, M(d), N(d))
    ensures Pos(r, c) == Goal(d.grid) ==> res == (Right, rng)
    ensures c + 1 < N(d) && r + 1 == M(d) ==> res == (Right, rng)
    ensures c + 1 == N(d) && r + 1 < M(d) ==> res == (Down, rng)
    ensures Pos(r, c) != Goal(d.grid) ==> InGrid(d.grid, StepPos(Pos(r, c), res.0))
    ensures c + 1 < N(d) && r + 1 < M(d) ==>
      res == DrawTwo(Weight(d, dp, Pos(r, c + 1)), Weight(d, dp, Pos(r + 1, c)), rng)
  {
    var canRight, canDown := c + 1 < N(d), r + 1 < M(d);
    if canRight && canDown then DrawTwo(Weight(d, dp, Pos(r, c + 1)), Weight(d, dp, Pos(r + 1, c)), rng)
    else if canRight then (Right, rng)
    else if canDown then (Down, rng)
    else (Right, rng)
  }

  /** A unit draw scaled onto a positive total stays below the total. */
  lemma ScaleBelow(u: real, t: real)
    requires 0.0 <= u < 1.0 && t > 0.0
    ensures 0.0 <= u * t
    ensures u * t < t
    ensures u > 0.0 ==> u * t > 0.0
  {
    assert (1.0 - u) * t > 0.0;
  }

  /** The cumulative scan over two weights, for a draw below their total. */
  lemma TwoWayPick(wr: real, wd: real, rand: real)
    requires 0.0 <= rand < wr + wd
    ensures wr > 0.0 && wd <= 0.0 ==> WeightedPick([Right, Down], [wr, wd], rand, 0, 0.0) == Right
    ensures wd > 0.0 && wr <= 0.0 && rand > 0.0 ==> WeightedPick([Right, Down], [wr, wd], rand, 0, 0.0) == Down
  {
    if wd > 0.0 && wr <= 0.0 && rand > 0.0 {
      assert WeightedPick([Right, Down], [wr, wd], rand, 0, 0.0)
          == WeightedPick([Right, Down], [wr, wd], rand, 1, 0.0);
    }
  }

  /** The weighted draw is uniform when the total weight is not positive.
      Otherwise a move of non-positive weight is never drawn when it is down,
      and when it is right only on a zero draw. */
  lemma DrawTwoSpec(wr: real, wd: real, rng: Rng)
    ensures wr + wd <= 0.0 ==>
      DrawTwo(wr, wd, rng) == (if Next(rng, 0, 2).0 == 0 then Right else Down, Next(rng, 0, 2).1)
    ensures wr + wd > 0.0 && wr > 0.0 && wd <= 0.0 ==> DrawTwo(wr, wd, rng).0 == Right
    ensures wr + wd > 0.0 && wd > 0.0 && wr <= 0.0 && NextDouble(rng).0 > 0.0 ==> DrawTwo(wr, wd, rng).0 == Down
  {
    if wr + wd > 0.0 {
      ScaledPick(wr, wd, wr + wd, NextDouble(rng).0);
    }
  }

  /** The cumulative scan of a unit draw scaled onto the total weight. */
  lemma ScaledPick(wr: real, wd: real, total: real, u: real)
    requires 0.0 <= u < 1.0 && total > 0.0 && total == wr + wd
    ensures wr > 0.0 && wd <= 0.0 ==> WeightedPick([Right, Down], [wr, wd], u * total, 0, 0.0) == Right
    ensures wd > 0.0 && wr <= 0.0 && u > 0.0 ==> WeightedPick([Right, Down], [wr, wd], u * total, 0, 0.0) == Down
  {
    ScaleBelow(u, total);
    TwoWayPick(wr, wd, u * total);
  }

  /** The exploration threshold: epsilon, scaled by 1.5 for Beginner and by
      0.5 for Master, and only when a DP table is supplied. */
  function ExplorationRate(epsilon: real, tier: string, hasTable: bool): (rate: real)
    ensures rate == epsilon <==> !hasTable || (tier != Beginner && tier != Master) || epsilon == 0.0
    ensures epsilon >= 0.0 ==> 0.5 * epsilon <= rate <= 1.5 * epsilon
    ensures epsilon > 0.0 && hasTable ==> (rate > epsilon <==> tier == Beginner) && (rate < epsilon <==> tier == Master)
  {
    if hasTable && tier == Beginner then epsilon * 1.5
    else if hasTable && tier == Master then epsilon * 0.5
    else epsilon
  }

  /** Action values closer than 1e-6 count as a tie. */
  predicate Tied(q: QPair)
  {
    RAbs(q.right - q.down) < 0.000001
  }

  function KeyOf(d: Dungeon, r: int, c: int): StateKey
    requires Valid(d)
  {
    StateKey(M(d), N(d), r, c)
  }

  /** Epsilon-greedy selection with the tier's exploration and tie-break. A
      tie without a table fails (`NullTable`) exactly when the tie-break must
      read the table, that is away from the goal. */
  function ChooseMove(agent: Agent, d: Dungeon, r: int, c: int, dp: Option<seq<seq<int>>>, tier: string, rng: Rng)
    : (res: (Choice, Agent, Rng))
    requires Valid(d) && InGrid(d.grid, Pos(r, c))
    requires dp.Some? ==> HasShape(dp.value, M(d), N(d))
    ensures res.1 == agent.(table := res.1.table)
    ensures forall k :: k in agent.table ==> k in res.1.table && res.1.table[k] == agent.table[k]
    ensures res.1.table.Keys <= agent.table.Keys + {KeyOf(d, r, c)}
    ensures KeyOf(d, r, c) in res.1.table && KeyOf(d, r, c) !in agent.table ==>
      res.1.table[KeyOf(d, r, c)] == ZeroPair
    ensures var u, rng1 := NextDouble(rng).0, NextDouble(rng).1;
      u < ExplorationRate(agent.epsilon, tier, dp.Some?) ==>
        && res.1 == agent
        && (tier == Master || tier == Expert ==> res.0 == Picked(SmartRandomMove(d, r, c, dp, rng1).0))
        && (tier != Master && tier != Expert ==>
              res.0 == Picked(if Next(rng1, 0, 2).0 == 0 then Right else Down))
    ensures NextDouble(rng).0 >= ExplorationRate(agent.epsilon, tier, dp.Some?) ==> KeyOf(d, r, c) in res.1.table
    ensures var q := Lookup(agent.table, KeyOf(d, r, c));
      NextDouble(rng).0 >= ExplorationRate(agent.epsilon, tier, dp.Some?) && !Tied(q) ==>
        res.0.Picked? && (res.0.move == Right <==> q.right >= q.down)
    ensures res.0.NullTable? <==>
      && dp.None?
      && NextDouble(rng).0 >= ExplorationRate(agent.epsilon, tier, dp.Some?)
      && Tied(Lookup(agent.table, KeyOf(d, r, c)))
      && Pos(r, c) != Goal(d.grid)
    ensures var q := Lookup(agent.table, KeyOf(d, r, c));
      NextDouble(rng).0 >= ExplorationRate(agent.epsilon, tier, dp.Some?) && Tied(q) && res.0.Picked? ==>
        var needs := TieNeeds(d, r, c, dp);
        res.0.move == BreakTie(d, r, c, needs.0, needs.1, tier, NextDouble(rng).1).0
  {
    var state := KeyOf(d, r, c);
    var draw := NextDouble(rng);
    var u, rng1 := draw.0, draw.1;
    if u < ExplorationRate(agent.epsilon, tier, dp.Some?) then
      if tier == Master || tier == Expert then
        var pick := SmartRandomMove(d, r, c, dp, rng1);
        (Picked(pick.0), agent, pick.1)
      else
        var k := Next(rng1, 0, 2);
        (Picked(if k.0 == 0 then Right else Down), agent, k.1)
    else
      var looked := Q(agent, state);
      var q, agent1 := looked.0, looked.1;
      if !Tied(q) then (Picked(if q.right >= q.down then Right else Down), agent1, rng1)
      else if dp.None? && Pos(r, c) != Goal(d.grid) then (NullTable, agent1, rng1)
      else
        var needs := TieNeeds(d, r, c, dp);
        var pick := BreakTie(d, r, c, needs.0, needs.1, tier, rng1);
        (Picked(pick.0), agent1, pick.1)
  }

  // ---------------------------------------------------------------------
  // Training episode.
  // ---------------------------------------------------------------------

  lemma RatioInUnit(a: nat, b: nat)
    requires a <= b && b > 0
    ensures 0.0 <= a as real / b as real <= 1.0
  {
    var q := a as real / b as real;
    assert q * b as real == a as real;
  }

  datatype Outcome = ReachedGoal | Died | OutOfBounds | StepLimit

  /** What one episode did: legal steps, non-terminal steps, how many of those
      agreed with the table, the summed loss, how it ended and where. */
  datatype Episode = Episode(steps: nat, taken: nat, optimal: nat, lossSum: real, outcome: Outcome, row: int, col: int, hp: int)

  /** The reward of entering a cell: its value, +50 at the goal, -50 on death. */
  function Reward(value: int, atGoal: bool, dead: bool): (reward: real)
    ensures reward > value as real <==> atGoal && !dead
    ensures reward < value as real <==> dead && !atGoal
    ensures reward != value as real ==> reward == value as real + 50.0 || reward == value as real - 50.0
  {
    value as real + (if atGoal then 50.0 else 0.0) - (if dead then 50.0 else 0.0)
  }

  /** Effect of one chosen action on the table, the loss and the walker. */
  datatype Step = Step(agent: Agent, lossAdd: real, outOfBounds: bool, nr: int, nc: int, hp: int, atGoal: bool, dead: bool)

  /** Taking `action` from (r, c): an off-grid target is punished with -25
      bootstrapped from the same state; otherwise the entered cell's value is
      added to the HP, and the transition is terminal exactly at the goal or
      when the HP has run out. */
  function TakeAction(agent: Agent, d: Dungeon, r: int, c: int, hp: int, action: Move): (s: Step)
    requires Valid(d) && InGrid(d.grid, Pos(r, c))
    ensures var key := KeyOf(d, r, c);
      s.outOfBounds ==>
        && !InGrid(d.grid, StepPos(Pos(r, c), action))
        && s.hp == hp && !s.atGoal && !s.dead
        && s.agent == UpdateQ(agent, key, action, -25.0, key, false).1
        && s.lossAdd == 25.0
    ensures var key := KeyOf(d, r, c);
      !s.outOfBounds ==>
        && Pos(s.nr, s.nc) == StepPos(Pos(r, c), action) && InGrid(d.grid, Pos(s.nr, s.nc))
        && s.hp == hp + d.grid[s.nr][s.nc]
        && (s.atGoal <==> Pos(s.nr, s.nc) == Goal(d.grid))
        && (s.dead <==> s.hp <= 0)
        && var u := UpdateQ(agent, key, action, Reward(d.grid[s.nr][s.nc], s.atGoal, s.dead),
                            KeyOf(d, s.nr, s.nc), s.atGoal || s.dead);
           s.agent == u.1 && s.lossAdd == RAbs(u.0)
    ensures s.agent == agent.(table := s.agent.table)
    ensures agent.table.Keys <= s.agent.table.Keys
    ensures s.lossAdd >= 0.0
  {
    var m, n := M(d), N(d);
    var state := KeyOf(d, r, c);
    var nr := r + (if action == Down then 1 else 0);
    var nc := c + (if action == Right then 1 else 0);
    if nr >= m || nc >= n then
      var update := UpdateQ(agent, state, action, -25.0, state, false);
      Step(update.1, 25.0, true, nr, nc, hp, false, false)
    else
      var value := d.grid[nr][nc];
      var hp' := hp + value;
      var dead := hp' <= 0;
      var atGoal := nr == m - 1 && nc == n - 1;
      var update := UpdateQ(agent, state, action, Reward(value, atGoal, dead), KeyOf(d, nr, nc), atGoal || dead);
      Step(update.1, RAbs(update.0), false, nr, nc, hp', atGoal, dead)
  }

  /** One iteration of the episode: choose a move with the table supplied,
      then take it. With a table the choice never fails. */
  method PlayStep(agent: Agent, d: Dungeon, dp: seq<seq<int>>, tier: string, rng: Rng, r: int, c: int, hp: int)
    returns (action: Move, step: Step, rng': Rng)
    requires Valid(d) && HasShape(dp, M(d), N(d)) && InGrid(d.grid, Pos(r, c))
    ensures AllPlays(d, dp, tier, [Played(agent, rng, Pos(r, c), hp, action, step, rng')])
    ensures step.outOfBounds ==> step.lossAdd == 25.0 && step.hp == hp
    ensures !step.outOfBounds ==>
      && Pos(step.nr, step.nc) == StepPos(Pos(r, c), action) && InGrid(d.grid, Pos(step.nr, step.nc))
      && step.hp == hp + d.grid[step.nr][step.nc]
      && (step.atGoal <==> Pos(step.nr, step.nc) == Goal(d.grid))
      && (step.dead <==> step.hp <= 0)
    ensures step.agent == agent.(table := step.agent.table)
    ensures agent.table.Keys <= step.agent.table.Keys
    ensures step.lossAdd >= 0.0
  {
    var choice := ChooseMove(agent, d, r, c, Some(dp), tier, rng);
    rng' := choice.2;
    action := choice.0.move;
    step := TakeAction(choice.1, d, r, c, hp, action);
    assert [Played(agent, rng, Pos(r, c), hp, action, step, rng')][0] == Played(agent, rng, Pos(r, c), hp, action, step, rng');
  }

  // ---------------------------------------------------------------------
  // Runs: the sequence of plays one episode makes.
  // ---------------------------------------------------------------------

  /** The walker between plays: the agent, the random stream, the cell and the HP. */
  datatype Walker = Walker(agent: Agent, rng: Rng, at: Pos, hp: int)

  /** One play of an episode: the walker before it, the action chosen, its
      step and the random stream after the choice. */
  datatype Played = Played(agent: Agent, rng: Rng, at: Pos, hp: int, action: Move, step: Step, rngAfter: Rng)

  function Before(p: Played): Walker
  {
    Walker(p.agent, p.rng, p.at, p.hp)
  }

  function After(p: Played): Walker
  {
    Walker(p.step.agent, p.rngAfter, Pos(p.step.nr, p.step.nc), p.step.hp)
  }

  /** A play ends the episode: an off-grid action, the goal, or death. */
  predicate Ends(p: Played)
  {
    p.step.outOfBounds || p.step.atGoal || p.step.dead
  }

  /** `p` is a play of an episode: from its walker, the move `ChooseMove`
      picks with the table supplied, taken by `TakeAction`. */
  ghost predicate IsPlay(d: Dungeon, dp: seq<seq<int>>, tier: string, p: Played)
    requires Valid(d) && HasShape(dp, M(d), N(d))
  {
    && InGrid(d.grid, p.at)
    && var choice := ChooseMove(p.agent, d, p.at.row, p.at.col, Some(dp), tier, p.rng);
       && choice.0 == Picked(p.action)
       && p.rngAfter == choice.2
       && p.step == TakeAction(choice.1, d, p.at.row, p.at.col, p.hp, p.action)
  }

  /** The next play continues from where `p` left the walker. */
  ghost predicate HandsOver(p: Played, q: Played)
  {
    !Ends(p) && After(p) == Before(q)
  }

  /** The plays of `t` follow one another from `start`: the first starts
      there and each play that does not end the episode hands its walker to
      the next. */
  ghost predicate Chained(start: Walker, t: seq<Played>)
  {
    && (|t| > 0 ==> Before(t[0]) == start)
    && forall i, j {:trigger t[i], t[j]} :: 0 <= i && j == i + 1 && j < |t| ==> HandsOver(t[i], t[j])
  }

  /** Every entry of `t` is a play of an episode. */
  ghost predicate AllPlays(d: Dungeon, dp: seq<seq<int>>, tier: string, t: seq<Played>)
    requires Valid(d) && HasShape(dp, M(d), N(d))
  {
    forall i {:trigger IsPlay(d, dp, tier, t[i])} :: 0 <= i < |t| ==> IsPlay(d, dp, tier, t[i])
  }

  /** A run from `start`: chained plays, each of them a real play. */
  ghost predicate IsRun(d: Dungeon, dp: seq<seq<int>>, tier: string, start: Walker, t: seq<Played>)
    requires Valid(d) && HasShape(dp, M(d), N(d))
  {
    Chained(start, t) && AllPlays(d, dp, tier, t)
  }

  /** The summed loss of a run. */
  function LossOf(t: seq<Played>): real
  {
    if |t| == 0 then 0.0 else LossOf(t[..|t| - 1]) + t[|t| - 1].step.lossAdd
  }

  /** The plays that do not end the episode. */
  function Taken(t: seq<Played>): nat
  {
    if |t| == 0 then 0 else Taken(t[..|t| - 1]) + (if Ends(t[|t| - 1]) then 0 else 1)
  }

  /** A play that does not end the episode and whose action is the direction
      the table prefers from the cell it entered. */
  predicate Agrees(dp: seq<seq<int>>, p: Played)
    requires IsGrid(dp)
  {
    && !Ends(p)
    && InGrid(dp, Pos(p.step.nr, p.step.nc))
    && OptimalMove(dp, p.step.nr, p.step.nc) == p.action
  }

  function Agreeing(dp: seq<seq<int>>, t: seq<Played>): nat
    requires IsGrid(dp)
  {
    if |t| == 0 then 0 else Agreeing(dp, t[..|t| - 1]) + (if Agrees(dp, t[|t| - 1]) then 1 else 0)
  }

  /** m + n - 2 < m * n + 10 on a non-empty grid: the step cap never binds. */
  lemma StepCapSlack(m: int, n: int)
    requires m >= 1 && n >= 1
    ensures m + n - 2 < m * n + 10
  {
    assert (m - 1) * (n - 1) >= 0;
  }

  /** Appending one play extends each tally of a run by that play alone. */
  lemma TalliesSnoc(dp: seq<seq<int>>, t: seq<Played>, p: Played)
    requires IsGrid(dp)
    ensures LossOf(t + [p]) == LossOf(t) + p.step.lossAdd
    ensures Taken(t + [p]) == Taken(t) + (if Ends(p) then 0 else 1)
    ensures Agreeing(dp, t + [p]) == Agreeing(dp, t) + (if Agrees(dp, p) then 1 else 0)
  {
    assert (t + [p])[..|t|] == t;
  }

  /** A play that stays on the grid moves its walker one step. */
  lemma PlayMoves(d: Dungeon, chooser: Agent, p: Played)
    requires Valid(d) && InGrid(d.grid, p.at)
    requires p.step == TakeAction(chooser, d, p.at.row, p.at.col, p.hp, p.action) && !p.step.outOfBounds
    ensures After(p).at == StepPos(p.at, p.action) && InGrid(d.grid, After(p).at)
  {
  }

  /** A run grows by a play that starts where the run left its walker. */
  lemma ExtendRun(d: Dungeon, dp: seq<seq<int>>, tier: string, start: Walker, t: seq<Played>, p: Played)
    requires Valid(d) && HasShape(dp, M(d), N(d))
    requires IsRun(d, dp, tier, start, t) && AllPlays(d, dp, tier, [p])
    requires |t| == 0 ==> Before(p) == start
    requires |t| > 0 ==> HandsOver(Last(t), p)
    ensures IsRun(d, dp, tier, start, t + [p])
  {
    assert (t + [p])[..|t|] == t;
    assert IsPlay(d, dp, tier, [p][0]);
  }

  /** The loop of an episode, from (0, 0) with the HP the table demands:
      plays until a play ends the episode. The ghost `trace` is the run it
      made, and the summed loss, the counters and where it ended are read
      off it. */
  method PlayEpisode(agent: Agent, d: Dungeon, dp: seq<seq<int>>, tier: string, rng: Rng)
    returns (agent': Agent, rng': Rng, ep: Episode, ghost trace: seq<Played>)
    requires Valid(d) && HasShape(dp, M(d), N(d))
    ensures IsRun(d, dp, tier, Walker(agent, rng, Pos(0, 0), dp[0][0] + d.grid[0][0]), trace)
    ensures |trace| >= 1 && Ends(Last(trace))
    ensures agent' == Last(trace).step.agent && rng' == Last(trace).rngAfter
    ensures agent' == agent.(table := agent'.table) && agent.table.Keys <= agent'.table.Keys
    ensures ep.lossSum == LossOf(trace) && ep.taken == Taken(trace) && ep.optimal == Agreeing(dp, trace)
    ensures ep.steps == |trace| - (if Last(trace).step.outOfBounds then 1 else 0)
    ensures ep.outcome ==
      (if Last(trace).step.outOfBounds then OutOfBounds
       else if Last(trace).step.atGoal then ReachedGoal
       else Died)
    ensures Pos(ep.row, ep.col) ==
      (if Last(trace).step.outOfBounds then Last(trace).at else After(Last(trace)).at)
    ensures ep.hp == Last(trace).step.hp
    ensures ep.lossSum >= 0.0
    ensures ep.optimal <= ep.taken <= ep.steps <= M(d) + N(d) - 2
    ensures ep.outcome == OutOfBounds ==> InGrid(d.grid, Pos(ep.row, ep.col))
    ensures ep.outcome == ReachedGoal ==> Pos(ep.row, ep.col) == Goal(d.grid)
    ensures ep.outcome == Died ==> ep.hp <= 0
    ensures M(d) == 1 && N(d) == 1 ==> ep.outcome == OutOfBounds && ep.steps == 0 && ep.lossSum == 25.0
  {
    var m, n := M(d), N(d);
    var r, c := 0, 0;
    var steps, taken, optimal := 0, 0, 0;
    var lossSum := 0.0;
    var minHp := dp[0][0];
    var hp := minHp + d.grid[0][0];
    var outcome := StepLimit;
    ghost var start := Walker(agent, rng, Pos(0, 0), hp);
    agent' := agent;
    rng' := rng;
    trace := [];
    StepCapSlack(m, n);

    while true
      invariant 0 <= r < m && 0 <= c < n
      invariant steps == r + c == |trace|
      invariant optimal <= taken <= steps
      invariant lossSum >= 0.0
      invariant agent' == agent.(table := agent'.table)
      invariant agent.table.Keys <= agent'.table.Keys
      invariant m == 1 && n == 1 ==> lossSum == 0.0
      invariant IsRun(d, dp, tier, start, trace)
      invariant |trace| == 0 ==> Walker(agent', rng', Pos(r, c), hp) == start
      invariant |trace| > 0 ==> !Ends(Last(trace)) && After(Last(trace)) == Walker(agent', rng', Pos(r, c), hp)
      invariant lossSum == LossOf(trace) && taken == Taken(trace) && optimal == Agreeing(dp, trace)
      decreases m - r + n - c
    {
      var action, step, rng1;
      action, step, rng1 := PlayStep(agent', d, dp, tier, rng', r, c, hp);
      ghost var play := Played(agent', rng', Pos(r, c), hp, action, step, rng1);
      TalliesSnoc(dp, trace, play);
      ExtendRun(d, dp, tier, start, trace, play);
      trace := trace + [play];
      assert Last(trace) == play;
      agent', rng' := step.agent, rng1;
      lossSum := lossSum + step.lossAdd;

      if step.outOfBounds {
        outcome := OutOfBounds;
        break;
      }

      var terminal := step.atGoal || step.dead;
      if !terminal {
        assert |dp[0]| == n;
        if OptimalMove(dp, step.nr, step.nc) == action {
          optimal := optimal + 1;
        }
        taken := taken + 1;
      }

      r, c, hp := step.nr, step.nc, step.hp;
      steps := steps + 1;

      if terminal || steps > m * n + 10 {
        outcome := if step.atGoal then ReachedGoal else if step.dead then Died else StepLimit;
        break;
      }
    }
    ep := Episode(steps, taken, optimal, lossSum, outcome, r, c, hp);
  }

  /** One training episode: the loop, then the counters. The episode count
      goes up by one, the last loss is the summed loss per legal step, and
      the accuracy moves 5% of the way toward the share of non-terminal steps
      that agreed with the table, when there were any. */
  method TrainEpisode(agent: Agent, d: Dungeon, dp: seq<seq<int>>, tier: string, rng: Rng)
    returns (loss: real, agent': Agent, rng': Rng, ep: Episode, ghost trace: seq<Played>)
    requires Valid(d) && HasShape(dp, M(d), N(d))
    ensures IsRun(d, dp, tier, Walker(agent, rng, Pos(0, 0), dp[0][0] + d.grid[0][0]), trace)
    ensures |trace| >= 1 && Ends(Last(trace))
    ensures agent'.table == Last(trace).step.agent.table && rng' == Last(trace).rngAfter
    ensures ep.lossSum == LossOf(trace) && ep.taken == Taken(trace) && ep.optimal == Agreeing(dp, trace)
    ensures ep.steps == |trace| - (if Last(trace).step.outOfBounds then 1 else 0)
    ensures agent'.alpha == agent.alpha && agent'.gamma == agent.gamma && agent'.epsilon == agent.epsilon
    ensures agent'.episodes == agent.episodes + 1
    ensures forall k :: k in agent.table ==> k in agent'.table
    ensures loss == agent'.lastLoss == ep.lossSum / Max(1, ep.steps) as real
    ensures ep.lossSum >= 0.0 && loss >= 0.0
    ensures ep.optimal <= ep.taken <= ep.steps <= M(d) + N(d) - 2
    ensures ep.taken == 0 ==> agent'.accuracy == agent.accuracy
    ensures ep.taken > 0 ==>
      agent'.accuracy == 0.95 * agent.accuracy + 0.05 * (ep.optimal as real / ep.taken as real)
    ensures 0.0 <= agent.accuracy <= 1.0 ==> 0.0 <= agent'.accuracy <= 1.0
    ensures M(d) == 1 && N(d) == 1 ==>
      ep.outcome == OutOfBounds && ep.steps == 0 && loss == 25.0 && agent'.accuracy == agent.accuracy
  {
    var played;
    played, rng', ep, trace := PlayEpisode(agent, d, dp, tier, rng);
    var accuracy := agent.accuracy;
    if ep.taken > 0 {
      accuracy := 0.95 * agent.accuracy + 0.05 * (ep.optimal as real / ep.taken as real);
      RatioInUnit(ep.optimal, ep.taken);
    }
    loss := ep.lossSum / Max(1, ep.steps) as real;
    agent' := played.(episodes := agent.episodes + 1, lastLoss := loss, accuracy := accuracy);
  }

  /** What a single play of a run says about where it is made and where it
      leaves its walker. */
  lemma PlayOfRun(d: Dungeon, dp: seq<seq<int>>, tier: string, t: seq<Played>, i: nat)
    requires Valid(d) && HasShape(dp, M(d), N(d))
    requires AllPlays(d, dp, tier, t) && i < |t|
    ensures InGrid(d.grid, t[i].at)
    ensures !t[i].step.outOfBounds ==> After(t[i]).at == StepPos(t[i].at, t[i].action)
  {
    assert IsPlay(d, dp, tier, t[i]);
    if !t[i].step.outOfBounds {
      var p := t[i];
      PlayMoves(d, ChooseMove(p.agent, d, p.at.row, p.at.col, Some(dp), tier, p.rng).1, p);
    }
  }

  /** The i-th play of a run from the entrance is made on the grid from the
      i-th anti-diagonal. */
  lemma {:induction false} PlayOnDiagonal(d: Dungeon, dp: seq<seq<int>>, tier: string, start: Walker, t: seq<Played>, i: nat)
    requires Valid(d) && HasShape(dp, M(d), N(d))
    requires IsRun(d, dp, tier, start, t) && start.at == Pos(0, 0) && i < |t|
    ensures InGrid(d.grid, t[i].at) && t[i].at.row + t[i].at.col == i
  {
    PlayOfRun(d, dp, tier, t, i);
    if i > 0 {
      PlayOnDiagonal(d, dp, tier, start, t, i - 1);
      assert HandsOver(t[i - 1], t[i]);
      PlayOfRun(d, dp, tier, t, i - 1);
    }
  }

  /** Every play of a run from the entrance is made on the grid, the i-th
      from the i-th anti-diagonal; so an episode makes at most M + N - 1
      plays. */
  lemma RunIsStaircase(d: Dungeon, dp: seq<seq<int>>, tier: string, start: Walker, t: seq<Played>)
    requires Valid(d) && HasShape(dp, M(d), N(d))
    requires IsRun(d, dp, tier, start, t) && start.at == Pos(0, 0)
    ensures forall i :: 0 <= i < |t| ==> InGrid(d.grid, t[i].at) && t[i].at.row + t[i].at.col == i
    ensures |t| <= M(d) + N(d) - 1
  {
    forall i | 0 <= i < |t|
      ensures InGrid(d.grid, t[i].at) && t[i].at.row + t[i].at.col == i
    {
      PlayOnDiagonal(d, dp, tier, start, t, i);
    }
    if |t| > 0 {
      PlayOnDiagonal(d, dp, tier, start, t, |t| - 1);
    }
  }
}

=== FILE: random_source.dfy ===
/** The random source of the game, passed in explicitly. A stream of raw
    samples stands for a seeded `System.Random`; each draw consumes one sample. */
module RandomSource {

  /** `sample(k)` is the k-th raw draw of the stream; `pos` counts the draws consumed. */
  datatype Rng = Rng(sample: nat -> real, pos: nat)

  /** A raw sample read as a double in [0, 1); out-of-range samples read as 0. */
  function Unit(x: real): (u: real)
    ensures 0.0 <= u < 1.0
    ensures 0.0 <= x < 1.0 ==> u == x
  {
    if 0.0 <= x < 1.0 then x else 0.0
  }

  /** `NextDouble()`: a double in [0, 1), advancing the stream by one draw. */
  function NextDouble(rng: Rng): (r: (real, Rng))
    ensures 0.0 <= r.0 < 1.0
    ensures r.1 == rng.(pos := rng.pos + 1)
  {
    (Unit(rng.sample(rng.pos)), rng.(pos := rng.pos + 1))
  }

  lemma ScaledUnitBelow(u: real, k: int)
    requires 0.0 <= u < 1.0 && k >= 1
    ensures 0 <= (u * k as real).Floor < k
  {
    assert u * k as real < k as real by {
      assert (1.0 - u) * k as real > 0.0;
    }
    assert 0.0 <= u * k as real;
  }

  /** `Next(lo, hi)`: an integer in [lo, hi), the sample scaled onto the range. */
  function Next(rng: Rng, lo: int, hi: int): (r: (int, Rng))
    requires lo < hi
    ensures lo <= r.0 < hi
    ensures r.1 == rng.(pos := rng.pos + 1)
  {
    var (u, rest) := NextDouble(rng);
    ScaledUnitBelow(u, hi - lo);
    (lo + (u * (hi - lo) as real).Floor, rest)
  }
}
